=== FILE: README.md ===
# Keith's Skittles — a Dafny model of the scoring core

Keith's Skittles is a Django site for recording games of Somerset skittles. An
own team plays an opposing team over several rounds. In each round, the players
of both teams take turns in an interleaved order for a configured number of
cycles. Each turn is three rolls at a rack of nine pins. The site validates each
turn, shows whose turn is next and the running plus/minus, and later derives
win/loss/draw records from the stored totals.

This project models that logic as pure functions over integers and sequences,
and proves what the site relies on:

- `rack.dfy` (module `Rack`): the nine-pin rack and the "reset on clear" rule.
  The rule gives the pins standing before rolls 2 and 3. A physical reference
  sets a cleared rack up again. The count before roll 2 always equals the
  reference, and the count before roll 3 equals it whenever roll 2 was legal.
- `score_form.dfy` (module `ScoreForm`): the turn form.
  - Each roll field must be present, a whole number, and in 0..9.
  - The form-wide check then adds one "required" error per roll that did not
    survive field cleaning.
  - When all three rolls survived, it adds the rack errors for rolls 2 and 3.
    Errors accumulate; they are not short-circuited.
- `turn_order.dfy` (module `TurnOrder`): which team goes first, and the
  `zip_longest` interleaving of the two teams into the scoring order. It includes
  a loop version, proved equal to the recursive definition.
- `game_state.dfy` (module `GameState`): the state of a round. This covers:
  - the current cycle, the next player, completion and the plus/minus;
  - the decision taken when a turn is submitted;
  - advancing to the next round.
- `results.dfy` (module `Results`):
  - win/loss/draw, and the two ways the views compute it;
  - the tallies over lists of games and the result filter of the past-games page;
  - team totals as the player statistics page builds them;
  - the per-location summary of the opponent statistics page.
- `pairing.dfy` (module `Pairing`):
  - automatic creation of the "Opp. <name>" opponents when a round's own team
    is chosen;
  - the own/opponent comparison table of the game statistics page.
- `wrappers.dfy` (module `Wrappers`): the `Option` type.

The database is replaced by plain sequences:
- the players of a round, in id order, stand for the round's `GamePlayer` rows;
- a sequence of `Score` records stands for the score table;
- per-player totals stand for the `Sum` aggregates.

A missing session value is an `Option`.

`clean()` checks roll 2 and roll 3 independently and collects every failure.
For rolls in 0..9, though, the two rack errors never occur together. A roll 2
that overshoots forces roll 1 + roll 2 > 9, so the rack is set up again before
roll 3, and no roll of at most 9 can exceed a full rack. `Rack.AtMostOneOvershoot`
proves this. The model keeps the code's structure and still checks roll 3 after
a failed roll 2.

## Model

| member | source | states |
|---|---|---|
| Rack.PinsBeforeRoll2 | scores/forms.py:124-125 | pins standing before roll 2 lie in 1..9 and equal the physical count: what roll 1 left, or a fresh rack if roll 1 cleared it |
| Rack.PinsBeforeRoll3 | scores/forms.py:131-149 | pins standing before roll 3 lie in 1..9; when roll 2 was legal, they equal the physical count after knocking down roll 1 and then roll 2, resetting whenever the rack is cleared |
| Rack.RackRuleIsPhysical | scores/forms.py:123-153 | a turn passes both rack checks exactly when it is physically possible on a nine-pin rack that is set up again whenever it is cleared |
| Rack.AtMostOneOvershoot | scores/forms.py:128-153 | if roll 2 exceeds the pins standing, the rack is full before roll 3 and roll 3 cannot also fail, so both rack errors never occur together |
| ScoreForm.CleanField | scores/forms.py:84-95 | a roll field survives cleaning exactly when it is a whole number in 0..9, keeping its value; otherwise a blank field is "required", a non-integer "not whole", a negative number below the minimum 0 and a number above 9 above the maximum 9 |
| ScoreForm.CleanedValue | scores/forms.py:106-109 | a roll is absent from the cleaned data exactly when its field was rejected; a present roll is the submitted number and lies in 0..9 |
| ScoreForm.FieldErrors | scores/forms.py:84-95 | a field reports errors exactly when it was rejected, and then exactly one error, on that field, carrying its cleaning problem |
| ScoreForm.MissingError | scores/forms.py:112-117 | a roll's "required" error is raised once if that roll is absent and not at all otherwise |
| ScoreForm.MissingErrorsReported | scores/forms.py:111-117 | the "required" errors of the three rolls are exactly one per absent roll, and nothing else |
| ScoreForm.RackErrors | scores/forms.py:123-153 | roll 2 gets an error exactly when it exceeds the pins before roll 2; roll 3 gets one exactly when it exceeds the pins before roll 3; roll 1 never does; no other error is ever reported, and at most one error in all; no error exactly when the turn is physically possible |
| ScoreForm.CleanForm | scores/forms.py:101-156 | each roll has a "required" error exactly when it is absent; when any roll is absent, nothing but "required" errors is produced |
| ScoreForm.Errors | scores/forms.py:84-156 | the form reports no error at all exactly when the submission is acceptable |
| ScoreForm.Validate | scores/forms.py:84-156 | a submission is accepted exactly when every field cleans and the rack rule holds; the accepted turn keeps the three rolls and their total lies in 0..27; a rejected one carries every field and form error, and at least one |
| ScoreForm.OutOfRangeRejected | scores/forms.py:84-95 | an out-of-range roll rejects the turn whatever the other rolls are, with its range error and also the form's "required" error |
| ScoreForm.NoRackErrorWhenMissing | scores/forms.py:119-121 | when any roll fails field cleaning, no rack error is reported |
| ScoreForm.MissingRollsReported | scores/forms.py:111-121 | when any roll fails field cleaning, each roll gets exactly one "required" error if it failed and none otherwise |
| ScoreForm.RackErrorsExact | scores/forms.py:123-153 | for three rolls in 0..9, each rack error appears exactly when its roll exceeds the pins standing, no other error appears, and there is at most one |
| ScoreForm.ExampleAcceptedTurns | scores/forms.py:123-153 | (0,0,0), (9,9,9) and (3,6,9) are accepted with totals 0, 27 and 18 |
| ScoreForm.ExampleShortRack | scores/forms.py:143-153 | after 3 and 4, a roll 3 of 2 is accepted and a roll 3 of 3 is rejected against 2 pins standing |
| ScoreForm.ExampleAfterStrike | scores/forms.py:137-142 | after a first-roll clear and 4, a roll 3 of 5 is accepted and a roll 3 of 6 is rejected against 5 pins standing |
| ScoreForm.ExampleRoll2Overshoot | scores/forms.py:125-129 | after a roll 1 of 5, a roll 2 of 6 is rejected against 4 pins standing and is the only error |
| TurnOrder.Interleave | scores/views.py:44-51 | the interleaving of two teams is as long as both teams together |
| TurnOrder.InterleavePermutes | scores/views.py:42-53 | the interleaving holds every player of both teams exactly once |
| TurnOrder.InterleaveAlternates | scores/views.py:44-51 | while both teams have players, the order alternates: the first team's i-th player at position 2i, the second team's at 2i+1 |
| TurnOrder.InterleaveTailFirst | scores/views.py:45-47 | once the second team runs out, the rest of the first team follows in its own order |
| TurnOrder.InterleaveTailSecond | scores/views.py:45-47 | once the first team runs out, the rest of the second team follows in its own order |
| TurnOrder.OpeningPlayer | scores/views.py:39-51 | the round's own setting of who goes first wins over the game-wide one, which defaults to the own team; the chosen team's first player opens the round |
| TurnOrder.ScoringOrder | scores/views.py:39-53 | the scoring order is a permutation of both teams with length len(own) + len(opp), and it opens with the first player of the team chosen to go first |
| TurnOrder.BuildScoringOrder | scores/views.py:43-51 | the loop over the padded pairs, appending each present player, builds exactly the interleaving |
| GameState.Cycles | scores/views.py:69 | the effective number of cycles equals the configured number when it is positive and is 1 when it is 0 |
| GameState.RoundScores | scores/views.py:68 | the scores counted are exactly those stored for the current round |
| GameState.RoundScoresCount | scores/views.py:68 | each stored score of the current round is counted as often as it is stored, and a score of another round never |
| GameState.RoundScoresAppend | scores/views.py:68 | storing a score adds it at the end of its own round's scores and leaves every other round's scores as they were |
| GameState.TeamTotalAppend | scores/views.py:90-92 | storing a score raises a team's total by the score's total when its player is on that team, and leaves it unchanged otherwise |
| GameState.StoredTotal | scores/views.py:226 | a stored total is the sum of the three rolls when all are present and 0 when none is; for rolls in 0..9 it lies in 0..27 |
| GameState.MissingRollCountsZero | scores/views.py:226 | a missing roll adds to the stored total exactly what a roll of 0 would |
| GameState.CompletionThreshold | scores/views.py:70-73 | the cycle after s entered scores exceeds the cycle count c exactly when s >= n*c |
| GameState.GetGameState | scores/views.py:53-93 | with no players: the set-up message, no current player, cycle 1, plus/minus 0, not complete. Otherwise: complete exactly when s >= n * max(cycles, 1); the cycle is s div n + 1; an incomplete round's current player is scoring_order[s mod n] in a cycle within bounds; plus/minus is own total minus opposing total |
| GameState.NextPlayerAlwaysKnown | scores/views.py:73-85 | every state asks for the teams, reports the round complete or names the next player; the "Error determining next player" branch is never taken |
| GameState.NextTurn | scores/views.py:70-71 | one more score either moves to the next index in the same cycle or wraps to index 0 of the next cycle |
| GameState.PlusMinusStep | scores/views.py:87-93 | saving a score for the current round moves the plus/minus by that score's total: up for an own player, down for an opposing one |
| GameState.SubmitTurn | scores/views.py:157-260 | with no own team the player-selection page is shown and nothing is saved; otherwise a submission is refused exactly when the round is complete, saved exactly when the form is valid and rejected with the form's errors exactly when it is not; the "could not determine current player" response never occurs; a saved score belongs to the current player, round and cycle (within bounds), keeps the rolls and totals them |
| GameState.FollowsOrderStep | scores/views.py:70-80 | a score stored for the player at index s mod n and cycle s div n + 1 extends a round that follows the scoring order to one that still does |
| GameState.TurnsFollowScoringOrder | scores/views.py:198-227 | however many turns are submitted, the k-th score of the round belongs to scoring_order[k mod n] and is in cycle k div n + 1, given that the round's earlier scores did |
| GameState.PlayerTurnsAt | scores/views.py:68-80 | in a round that follows a scoring order of distinct players, the player at index i has had s div n turns after s scores, plus one if i < s mod n |
| GameState.FullWhenComplete | scores/views.py:68-76 | a round played from empty that reports itself complete holds exactly n * max(cycles, 1) scores |
| GameState.CompletedRoundIsFair | scores/views.py:68-80 | when a round played from empty completes, every player in the scoring order has had exactly max(cycles, 1) turns, given distinct players |
| GameState.RoundNeverOverfills | scores/views.py:198-227 | however many turns are submitted, a round never holds more than n * max(cycles, 1) scores |
| GameState.NoScoresYet | scores/views.py:68 | a round beyond every stored score has no scores entered |
| GameState.AfterRound | scores/views.py:288-305 | "next round" moves to the completed round + 1, treating a missing session value as round 1; "end game" goes to the statistics; anything else shows the summary of the completed round |
| GameState.NextRoundStartsFresh | scores/views.py:288-296 | after advancing with both teams set up, the new round is not complete, is in cycle 1 with plus/minus 0, and the team chosen to go first opens it |
| Results.Classify | scores/views.py:349-354 | a game is a win exactly when own > opp, a loss exactly when own < opp, a draw exactly when they are equal |
| Results.DifferenceAgrees | scores/views.py:906-910 | classifying by the sign of the score difference (ClassifyByDifference) agrees with comparing the totals |
| Results.ClassifyMirror | scores/views.py:349-354 | swapping the two totals swaps win and loss and keeps a draw |
| Results.Tally | scores/views.py:895-920 | wins + losses + draws equals the number of games counted |
| Results.TallyCountsResults | scores/views.py:906-910 | the wins, losses and draws counted are the numbers of games with each result |
| Results.TallyAppend | scores/views.py:900-920 | counting over two lists of games adds their counts |
| Results.WithResult | scores/views.py:496-497 | the games kept by a result filter all have that result |
| Results.WithResultKeepsAll | scores/views.py:496-497 | every game with the result is kept as often as it occurs, and no other game |
| Results.WithResultAppend | scores/views.py:496-497 | filtering keeps the games' order: filtering two lists one after the other gives the two filtered lists one after the other |
| Results.FilterByResult | scores/views.py:493-497 | the filter "Win", "Loss" or "Draw" keeps the games with that result; any other filter keeps them all |
| Results.ResultFiltersPartition | scores/views.py:493-497 | the three result filters pick out as many games as the tally counts, together every game |
| Results.GameResult | scores/views.py:341-354 | the game statistics page's result is a win, loss or draw exactly as the own team's sum of player totals is above, below or equal to the opposing team's |
| Results.TeamTotalsSums | scores/views.py:696-704 | the team totals (TeamTotals) built score by score equal the own players' sum and the sum of opposing players not also on the own team |
| Results.ResultViewsAgree | scores/views.py:696-721 | with disjoint teams, the result derived from the accumulated team totals is the result of comparing the two teams' sums |
| Results.PlayerRecord | scores/views.py:706-721 | a player's record counts at most one result per game |
| Results.OwnGames | scores/views.py:711-713 | every game kept has the player on the own team |
| Results.OwnGamesKeepsAll | scores/views.py:711-713 | every game with the player on the own team is kept as often as it occurs, and no other game |
| Results.PlayerRecordIsTally | scores/views.py:706-721 | a player's record is the tally of exactly the games in which they played for the own team, so their wins, losses and draws add up to that number |
| Results.ByLocation | scores/views.py:913-918 | every location's count equals its wins + losses + draws |
| Results.AtLocation | scores/views.py:913 | every game kept was played at that location, under "Unknown Location" when none is recorded |
| Results.AtLocationKeepsAll | scores/views.py:913 | every game played at the location is kept as often as it occurs, and no other game |
| Results.ByLocationSummarises | scores/views.py:913-918 | a location has an entry exactly when some game was played there, with "Unknown Location" for none, and the entry's counts, wins, losses, draws and difference sum are those of its games |
| Pairing.OpponentName | scores/views.py:171 | an opponent's name is the prefix "Opp. " followed by the own player's name |
| Pairing.OpponentNameInjective | scores/views.py:169-174 | different own players get differently named opponents |
| Pairing.CreateOpponents | scores/views.py:169-174 | the existing opponents are kept as a prefix; afterwards every own player has an opponent named after them; every added opponent is named after some own player and is added only when no opponent of that name is there yet |
| Pairing.OpponentNames | scores/views.py:170-171 | one opponent name per own player, in order |
| Pairing.FreshOpponents | scores/views.py:169-174 | when no matching opponents exist yet and the own names are distinct, exactly one opponent is created per own player, in order |
| Pairing.FreshRoundFacesOwnOpponent | scores/views.py:42-47 | in a fresh round with the own team first, each own player is followed directly by the opponent named after them |
| Pairing.FindOpponent | scores/views.py:386-388 | the match is the first opposing entry named "Opp. " + the own name, and there is none exactly when no entry has that name |
| Pairing.MatchedRows | scores/views.py:385-391 | one row per own player, in order, holding that player and their match |
| Pairing.MatchedIds | scores/views.py:389-390 | the processed ids are exactly the ids of the own players' matches |
| Pairing.UnmatchedRows | scores/views.py:393-396 | every extra row has no own player and an opponent from the list whose id was not processed |
| Pairing.UnmatchedRowsOnce | scores/views.py:393-396 | with distinct opponent ids, no opponent gets two rows of its own |
| Pairing.UnmatchedCovers | scores/views.py:393-396 | every opponent whose id was not processed gets a row |
| Pairing.PairTotals | scores/views.py:381-396 | the table starts with one row per own player, paired with their match or none; the remaining rows hold only an opponent from the list, never one whose id was matched to an own player, and, with distinct ids, each at most once |
| Pairing.EveryOpponentShown | scores/views.py:381-396 | every opposing player appears in some row, given that the opponents' ids are distinct |

## Left out

- The Django ORM, migrations and models are replaced by sequences:
  - the players of a round come in id order;
  - scores are a list;
  - per-player sums stand for the `Sum`/`Coalesce` aggregates.
- Sessions, redirects, template rendering, JSON responses and URL reversing are
  replaced by values:
  - an `Option` for a missing session entry;
  - the `Submitted` and `RoundStep` outcomes for the responses.
- `live_game` can raise the session's round to the latest round stored in the
  database (scores/views.py:140-152). It also falls back to round 1 for a
  non-integer value. The model takes the current round as given.
- Pagination, and the AJAX handlers that add opponents and locations or delete
  a game, are database glue with no logic of their own.
- The averages and percentages are floating-point and are not modelled:
  averages per cycle, win percentage, average score for, against and
  difference.
- The round differentials, cycle totals, highest scorers and top-player
  rankings of the statistics pages are also not modelled.
- The websocket consumer and the channel routing are concurrency, with no
  scoring logic.
- Settings, URL configuration, the admin registration and the users views are
  configuration with no logic.
- The `GamePlayerForm` queryset filter, and the model form's own
  instance-level validation after `clean()`, are framework behaviour.
- A score that fails to save (scores/views.py:253-255) is outside the pure
  model; `SubmitTurn` assumes the save succeeds.
- GameState.CompletedRoundIsFair and GameState.PlayerTurnsAt: assume the scoring
  order names each player once. The player-selection formset could pick the
  same player twice, and that player would then have two turns per cycle.
- Results.FilterByResult: its contract states which games are kept; that their
  order is kept is stated by Results.WithResultAppend.
- Pairing.PairTotals: dictionary iteration order is taken to be the order of
  the given sequences. The own and opposing dictionaries are keyed by player
  id, so `EveryOpponentShown` assumes distinct ids.
- Pairing.CreateOpponents: opponents are identified by name only.
  - `get_or_create` of the `Player` row is not modelled.
  - The own team is taken from the round's `GamePlayer` rows; the formset
    that creates those rows is not modelled.
- TurnOrder.TeamFirst: the session stores "own" or "opp" from the round
  options form. Any other stored string makes the view put the opposing team
  first, and that is not distinguished here.

=== FILE: game_state.dfy ===
/** The live-game bookkeeping: whose turn it is, which cycle is being played,
    whether the round is complete and how far ahead the own team is, all derived
    from the two team lists and the scores entered so far; the decision taken on
    a submitted turn; and the step to the next round. */
module GameState {
  import opened Wrappers
  import opened Rack
  import opened ScoreForm
  import opened TurnOrder

  /** A stored score row. The roll columns are nullable; the total is stored. */
  datatype Score<P> = Score(player: P, round: int, cycle: int,
                            roll1: Option<int>, roll2: Option<int>, roll3: Option<int>,
                            total: int)

  /** The prompt shown above the score-entry form. */
  datatype Message<P> =
    | SetUpTeams(round: int)
    | RoundComplete(round: int)
    | EnterScore(player: P, cycle: int, round: int)
    | NextPlayerUnknown

  /** The derived state of a round. `noPlayers` stands for the "No players found"
      error of the state with empty teams. */
  datatype State<P> = State(message: Message<P>, current: Option<P>, cycle: int,
                            plusMinus: int, complete: bool, noPlayers: bool)

  /** Cycles a round lasts: the configured number, but at least one. */
  function Cycles(configured: nat): (c: nat)
    ensures c >= 1 && c >= configured
    ensures configured >= 1 ==> c == configured
    ensures configured == 0 ==> c == 1
  {
    if configured < 1 then 1 else configured
  }

  /** The scores of one round, in their stored order. */
  function RoundScores<P>(scores: seq<Score<P>>, round: int): (r: seq<Score<P>>)
    ensures |r| <= |scores|
    ensures forall i :: 0 <= i < |r| ==> r[i] in scores && r[i].round == round
    ensures forall i :: 0 <= i < |scores| && scores[i].round == round ==> scores[i] in r
  {
    if scores == [] then []
    else
      var rest := RoundScores(scores[1..], round);
      assert forall i :: 1 <= i < |scores| ==> scores[i] == scores[1..][i - 1];
      if scores[0].round == round then [scores[0]] + rest else rest
  }

  /** The round's scores hold each score of that round exactly as often as it was
      stored, and nothing else: their number is the count of the round's rows. */
  lemma {:induction false} RoundScoresCount<P>(scores: seq<Score<P>>, round: int)
    ensures forall x :: multiset(RoundScores(scores, round))[x]
                        == (if x.round == round then multiset(scores)[x] else 0)
  {
    if scores != [] {
      RoundScoresCount(scores[1..], round);
      assert scores == [scores[0]] + scores[1..];
    }
  }

  /** The sum of the stored totals of the scores made by players of `team`;
      nothing scored counts as 0. */
  function TeamTotal<P(==)>(scores: seq<Score<P>>, team: seq<P>): int
  {
    if scores == [] then 0
    else (if scores[0].player in team then scores[0].total else 0) + TeamTotal(scores[1..], team)
  }

  /** The stored total of a turn: the sum of its rolls, a missing roll counting as 0. */
  function StoredTotal(roll1: Option<int>, roll2: Option<int>, roll3: Option<int>): (t: int)
    ensures roll1.Some? && roll2.Some? && roll3.Some? ==> t == roll1.value + roll2.value + roll3.value
    ensures roll1.None? && roll2.None? && roll3.None? ==> t == 0
    ensures (forall r :: r in [roll1, roll2, roll3] && r.Some? ==> IsRoll(r.value)) ==> 0 <= t <= 3 * Pins
  {
    roll1.GetOr(0) + roll2.GetOr(0) + roll3.GetOr(0)
  }

  /** A missing roll adds nothing to the stored total: it counts as a roll of 0. */
  lemma MissingRollCountsZero(roll1: Option<int>, roll2: Option<int>, roll3: Option<int>)
    ensures roll1.None? ==> StoredTotal(roll1, roll2, roll3) == StoredTotal(Some(0), roll2, roll3)
    ensures roll2.None? ==> StoredTotal(roll1, roll2, roll3) == StoredTotal(roll1, Some(0), roll3)
    ensures roll3.None? ==> StoredTotal(roll1, roll2, roll3) == StoredTotal(roll1, roll2, Some(0))
  {
  }

  /** The state of round `round`. `first` is the team chosen to open it,
      `configuredCycles` the game's cycles per round, `scores` every score of the
      game. */
  function GetGameState<P(==)>(own: seq<P>, opp: seq<P>, first: Team, round: int,
                               configuredCycles: nat, scores: seq<Score<P>>): (st: State<P>)
    ensures st.noPlayers <==> own == [] && opp == []
    ensures st.noPlayers ==> st == State(SetUpTeams(round), None, 1, 0, false, true)
    ensures !st.noPlayers ==>
              var n, entered := |own| + |opp|, |RoundScores(scores, round)|;
              && (st.complete <==> entered >= n * Cycles(configuredCycles))
              && st.cycle == entered / n + 1
              && st.plusMinus == TeamTotal(RoundScores(scores, round), own)
                                 - TeamTotal(RoundScores(scores, round), opp)
    ensures st.complete ==> st.current == None && st.message == RoundComplete(round)
    ensures !st.complete && !st.noPlayers ==>
              var n, entered := |own| + |opp|, |RoundScores(scores, round)|;
              && 1 <= st.cycle <= Cycles(configuredCycles)
              && st.current == Some(ScoringOrder(own, opp, first)[entered % n])
              && st.message == EnterScore(st.current.value, st.cycle, round)
  {
    var order := ScoringOrder(own, opp, first);
    var totalTurns := |order|;
    if totalTurns == 0 then
      State(SetUpTeams(round), None, 1, 0, false, true)
    else
      var roundScores := RoundScores(scores, round);
      var entered := |roundScores|;
      var cyclesPerRound := Cycles(configuredCycles);
      var currentCycle := entered / totalTurns + 1;
      var nextIndex := entered % totalTurns;
      var plusMinus := TeamTotal(roundScores, own) - TeamTotal(roundScores, opp);
      DivModBounds(entered, totalTurns);
      CompletionThreshold(entered, totalTurns, cyclesPerRound);
      if currentCycle > cyclesPerRound then
        State(RoundComplete(round), None, currentCycle, plusMinus, true, false)
      else if nextIndex < totalTurns then
        var player := order[nextIndex];
        State(EnterScore(player, currentCycle, round), Some(player), currentCycle, plusMinus, false, false)
      else
        State(NextPlayerUnknown, None, currentCycle, plusMinus, false, false)
  }

  /** The "Error determining next player" branch is never taken: every state
      either asks for the teams, reports the round complete or names the player
      to score next. */
  lemma NextPlayerAlwaysKnown<P>(own: seq<P>, opp: seq<P>, first: Team, round: int,
                                 configuredCycles: nat, scores: seq<Score<P>>)
    ensures var st := GetGameState(own, opp, first, round, configuredCycles, scores);
            st.message.SetUpTeams? || st.message.RoundComplete? || st.message.EnterScore?
  {
  }

  /** The cycle counter passes the round's cycles exactly when every player has had
      that many turns. */
  lemma CompletionThreshold(entered: nat, n: nat, cycles: nat)
    requires n > 0
    ensures entered / n + 1 > cycles <==> entered >= n * cycles
  {
    var q, r := entered / n, entered % n;
    assert entered == n * q + r && 0 <= r < n;
    if q + 1 > cycles {
      assert q >= cycles;
      assert n * q >= n * cycles by { MulMonotone(n, cycles, q); }
    } else {
      assert q + 1 <= cycles;
      assert n * (q + 1) <= n * cycles by { MulMonotone(n, q + 1, cycles); }
      assert entered < n * (q + 1);
    }
  }

  lemma DivModBounds(entered: nat, n: nat)
    requires n > 0
    ensures entered / n >= 0 && 0 <= entered % n < n
  {
  }

  lemma MulMonotone(n: nat, x: int, y: int)
    requires x <= y
    ensures n * x <= n * y
  {
    assert n * y - n * x == n * (y - x);
  }

  lemma DivModUnique(a: int, n: int, q: int, r: int)
    requires n > 0 && 0 <= r < n && a == n * q + r
    ensures a / n == q && a % n == r
  {
    var q', r' := a / n, a % n;
    assert a == n * q' + r' && 0 <= r' < n;
    assert n * (q - q') == r' - r;
    if q - q' >= 1 {
      MulMonotone(n, 1, q - q');
    } else if q - q' <= -1 {
      MulMonotone(n, q - q', -1);
    }
  }

  /** One more score moves the turn to the next position of the scoring order; the
      cycle advances exactly when the last position has played. */
  lemma NextTurn(entered: nat, n: nat)
    requires n > 0
    ensures entered % n == n - 1 ==> (entered + 1) / n == entered / n + 1 && (entered + 1) % n == 0
    ensures entered % n < n - 1 ==> (entered + 1) / n == entered / n && (entered + 1) % n == entered % n + 1
  {
    var q, r := entered / n, entered % n;
    assert entered == n * q + r && 0 <= r < n;
    if r == n - 1 {
      DivModUnique(entered + 1, n, q + 1, 0);
    } else {
      DivModUnique(entered + 1, n, q, r + 1);
    }
  }

  /** The number of turns, among the first `entered`, taken at position `i` of a
      scoring order of `n` players (turn k goes to position k mod n). */
  function TurnsAt(n: nat, i: nat, entered: nat): nat
    requires n > 0
  {
    if entered == 0 then 0
    else TurnsAt(n, i, entered - 1) + (if (entered - 1) % n == i then 1 else 0)
  }

  /** Turns are dealt round-robin: after `entered` scores, position `i` has played
      once per completed cycle, plus once more if the current cycle has reached it. */
  lemma {:induction false} TurnsAtFormula(n: nat, i: nat, entered: nat)
    requires 0 < n && i < n
    ensures TurnsAt(n, i, entered) == entered / n + (if i < entered % n then 1 else 0)
  {
    if entered > 0 {
      TurnsAtFormula(n, i, entered - 1);
      NextTurn(entered - 1, n);
      var q, r := (entered - 1) / n, (entered - 1) % n;
      if r == n - 1 {
        assert entered / n == q + 1 && entered % n == 0;
      } else {
        assert entered / n == q && entered % n == r + 1;
      }
    }
  }

  /** When a round is complete, every position of the scoring order has played
      exactly the round's number of cycles. */
  lemma {:induction false} TurnsAtFullCycles(n: nat, cycles: nat, i: nat)
    requires 0 < n && i < n
    ensures TurnsAt(n, i, n * cycles) == cycles
  {
    TurnsAtFormula(n, i, n * cycles);
    DivModUnique(n * cycles, n, cycles, 0);
  }

  /** Storing one more score keeps the round's scores in order and adds it to
      them when it belongs to the round. */
  lemma {:induction false} RoundScoresAppend<P>(scores: seq<Score<P>>, x: Score<P>, round: int)
    ensures RoundScores(scores + [x], round)
            == RoundScores(scores, round) + (if x.round == round then [x] else [])
  {
    if scores != [] {
      assert (scores + [x])[1..] == scores[1..] + [x];
      RoundScoresAppend(scores[1..], x, round);
    }
  }

  /** Storing one more score adds its total to its player's team. */
  lemma {:induction false} TeamTotalAppend<P>(scores: seq<Score<P>>, x: Score<P>, team: seq<P>)
    ensures TeamTotal(scores + [x], team)
            == TeamTotal(scores, team) + (if x.player in team then x.total else 0)
  {
    if scores != [] {
      assert (scores + [x])[1..] == scores[1..] + [x];
      TeamTotalAppend(scores[1..], x, team);
    }
  }

  /** A score stored in the round moves plus/minus by its total: up for an own
      player, down for an opposing one. */
  lemma PlusMinusStep<P>(own: seq<P>, opp: seq<P>, first: Team, round: int,
                             configuredCycles: nat, scores: seq<Score<P>>, x: Score<P>)
    requires own != [] || opp != []
    requires x.round == round
    ensures GetGameState(own, opp, first, round, configuredCycles, scores + [x]).plusMinus
            == GetGameState(own, opp, first, round, configuredCycles, scores).plusMinus
               + (if x.player in own then x.total else 0) - (if x.player in opp then x.total else 0)
  {
    var rs := RoundScores(scores, round);
    RoundScoresAppend(scores, x, round);
    TeamTotalAppend(rs, x, own);
    TeamTotalAppend(rs, x, opp);
  }

  /** What happens to a turn submitted during the live game. */
  datatype Submitted<P> =
    | SelectPlayers                  // no own team yet: the player-selection page is shown
    | Saved(score: Score<P>)
    | AlreadyComplete
    | NoCurrentPlayer
    | FormErrors(errors: seq<FieldError>)

  /** Handles a turn submitted for round `round`. Until the round has an own team,
      every request gets the player-selection page. Otherwise the turn is refused
      once the round is complete, and else validated and, when valid, stored for
      the current player with the current cycle and the total of its rolls. The
      "no current player" answer is never given. */
  function SubmitTurn<P(==)>(own: seq<P>, opp: seq<P>, first: Team, round: int,
                             configuredCycles: nat, scores: seq<Score<P>>, sub: Submission)
    : (r: Submitted<P>)
    ensures var n, entered := |own| + |opp|, |RoundScores(scores, round)|;
            && (r.SelectPlayers? <==> own == [])
            && (r.AlreadyComplete? <==> own != [] && entered >= n * Cycles(configuredCycles))
            && !r.NoCurrentPlayer?
            && (r.Saved? <==> own != [] && entered < n * Cycles(configuredCycles) && Acceptable(sub))
            && (r.FormErrors? <==> own != [] && entered < n * Cycles(configuredCycles) && !Acceptable(sub))
            && (r.FormErrors? ==> r.errors == Errors(sub))
    ensures r.Saved? ==>
              var n, entered := |own| + |opp|, |RoundScores(scores, round)|;
              && r.score.player == ScoringOrder(own, opp, first)[entered % n]
              && r.score.round == round
              && r.score.cycle == entered / n + 1
              && 1 <= r.score.cycle <= Cycles(configuredCycles)
              && r.score.roll1 == Some(sub.roll1.n)
              && r.score.roll2 == Some(sub.roll2.n)
              && r.score.roll3 == Some(sub.roll3.n)
              && r.score.total == sub.roll1.n + sub.roll2.n + sub.roll3.n
              && 0 <= r.score.total <= 3 * Pins
  {
    if own == [] then SelectPlayers
    else
      var st := GetGameState(own, opp, first, round, configuredCycles, scores);
      if st.complete then AlreadyComplete
      else if st.current.None? then NoCurrentPlayer
      else
        match Validate(sub)
        case Valid(t, _) =>
          var r1, r2, r3 := Some(t.roll1), Some(t.roll2), Some(t.roll3);
          Saved(Score(st.current.value, round, st.cycle, r1, r2, r3, StoredTotal(r1, r2, r3)))
        case Invalid(errors) => FormErrors(errors)
  }

  /** A round in a consistent state: no more scores than the round has turns, and
      every one of them in one of its cycles. */
  ghost predicate RoundWithinBounds<P>(scores: seq<Score<P>>, round: int, n: nat, cycles: nat)
  {
    var rs := RoundScores(scores, round);
    && |rs| <= n * cycles
    && forall i :: 0 <= i < |rs| ==> 1 <= rs[i].cycle <= cycles
  }

  /** Plays a sequence of submissions into the round, storing each saved turn. */
  function PlayRound<P(==)>(own: seq<P>, opp: seq<P>, first: Team, round: int,
                            configuredCycles: nat, scores: seq<Score<P>>, subs: seq<Submission>)
    : seq<Score<P>>
    decreases |subs|
  {
    if subs == [] then scores
    else
      var next :=
        match SubmitTurn(own, opp, first, round, configuredCycles, scores, subs[0])
        case Saved(x) => scores + [x]
        case _ => scores;
      PlayRound(own, opp, first, round, configuredCycles, next, subs[1..])
  }

  /** However many turns are submitted, a round never takes more scores than its
      players times its cycles, and every stored score lies in one of its cycles. */
  lemma {:induction false} RoundNeverOverfills<P>(own: seq<P>, opp: seq<P>, first: Team, round: int,
                                                      configuredCycles: nat, scores: seq<Score<P>>,
                                                      subs: seq<Submission>)
    requires RoundWithinBounds(scores, round, |own| + |opp|, Cycles(configuredCycles))
    ensures RoundWithinBounds(PlayRound(own, opp, first, round, configuredCycles, scores, subs),
                              round, |own| + |opp|, Cycles(configuredCycles))
    decreases |subs|
  {
    if subs != [] {
      var r := SubmitTurn(own, opp, first, round, configuredCycles, scores, subs[0]);
      if r.Saved? {
        RoundScoresAppend(scores, r.score, round);
        var rs := RoundScores(scores, round);
        assert RoundScores(scores + [r.score], round) == rs + [r.score];
        assert RoundWithinBounds(scores + [r.score], round, |own| + |opp|, Cycles(configuredCycles));
        RoundNeverOverfills(own, opp, first, round, configuredCycles, scores + [r.score], subs[1..]);
      } else {
        RoundNeverOverfills(own, opp, first, round, configuredCycles, scores, subs[1..]);
      }
    }
  }

  /** Turn k of a round (counting from 0) went to position k mod n of the scoring
      order, in cycle k div n + 1. */
  ghost predicate FollowsOrder<P>(rs: seq<Score<P>>, order: seq<P>)
  {
    forall k :: 0 <= k < |rs| ==>
      && |order| > 0
      && rs[k].player == order[k % |order|]
      && rs[k].cycle == k / |order| + 1
  }

  /** Appending the turn due next keeps a round's scores in scoring order. */
  lemma FollowsOrderStep<P>(rs: seq<Score<P>>, x: Score<P>, order: seq<P>)
    requires FollowsOrder(rs, order) && |order| > 0
    requires x.player == order[|rs| % |order|] && x.cycle == |rs| / |order| + 1
    ensures FollowsOrder(rs + [x], order)
  {
    var rs' := rs + [x];
    forall k | 0 <= k < |rs'|
      ensures rs'[k].player == order[k % |order|] && rs'[k].cycle == k / |order| + 1
    {
      if k < |rs| {
        assert rs'[k] == rs[k];
      }
    }
  }

  /** Every turn the live game stores goes to the player the scoring order puts
      next: starting from a round whose scores follow the order (in particular one
      with no scores), the k-th score of the round is by the player at position
      k mod n, in cycle k div n + 1. */
  lemma {:induction false} TurnsFollowScoringOrder<P>(own: seq<P>, opp: seq<P>, first: Team, round: int,
                                                      configuredCycles: nat, scores: seq<Score<P>>,
                                                      subs: seq<Submission>)
    requires FollowsOrder(RoundScores(scores, round), ScoringOrder(own, opp, first))
    ensures FollowsOrder(RoundScores(PlayRound(own, opp, first, round, configuredCycles, scores, subs), round),
                         ScoringOrder(own, opp, first))
    decreases |subs|
  {
    if subs != [] {
      var r := SubmitTurn(own, opp, first, round, configuredCycles, scores, subs[0]);
      if r.Saved? {
        var rs := RoundScores(scores, round);
        RoundScoresAppend(scores, r.score, round);
        assert RoundScores(scores + [r.score], round) == rs + [r.score];
        FollowsOrderStep(rs, r.score, ScoringOrder(own, opp, first));
        assert PlayRound(own, opp, first, round, configuredCycles, scores, subs)
               == PlayRound(own, opp, first, round, configuredCycles, scores + [r.score], subs[1..]);
        TurnsFollowScoringOrder(own, opp, first, round, configuredCycles, scores + [r.score], subs[1..]);
      } else {
        assert PlayRound(own, opp, first, round, configuredCycles, scores, subs)
               == PlayRound(own, opp, first, round, configuredCycles, scores, subs[1..]);
        TurnsFollowScoringOrder(own, opp, first, round, configuredCycles, scores, subs[1..]);
      }
    }
  }

  /** The number of the given scores made by `player`. */
  function PlayerTurns<P(==)>(rs: seq<Score<P>>, player: P): nat
  {
    if rs == [] then 0
    else PlayerTurns(rs[..|rs| - 1], player) + (if rs[|rs| - 1].player == player then 1 else 0)
  }

  /** No player appears twice in a scoring order. */
  ghost predicate DistinctPlayers<P>(order: seq<P>)
  {
    forall a, b :: 0 <= a < b < |order| ==> order[a] != order[b]
  }

  /** When the scores follow an order of distinct players, the player at position
      i has made exactly the turns dealt to that position. */
  lemma {:induction false} PlayerTurnsAt<P>(rs: seq<Score<P>>, order: seq<P>, i: nat)
    requires FollowsOrder(rs, order) && DistinctPlayers(order) && i < |order|
    ensures PlayerTurns(rs, order[i]) == TurnsAt(|order|, i, |rs|)
    decreases |rs|
  {
    if rs != [] {
      var n, m := |order|, |rs| - 1;
      var pre := rs[..m];
      assert FollowsOrder(pre, order) by {
        forall k | 0 <= k < |pre|
          ensures |order| > 0 && pre[k].player == order[k % n] && pre[k].cycle == k / n + 1
        {
          assert pre[k] == rs[k];
        }
      }
      PlayerTurnsAt(pre, order, i);
      assert rs[m].player == order[m % n];
      if m % n < i {
        assert order[m % n] != order[i];
      } else if m % n > i {
        assert order[i] != order[m % n];
      }
    }
  }

  /** A round played from no scores that reports itself complete holds exactly
      n * c scores: it cannot hold more. */
  lemma FullWhenComplete<P>(own: seq<P>, opp: seq<P>, first: Team, round: int,
                            configuredCycles: nat, scores: seq<Score<P>>, subs: seq<Submission>)
    requires RoundScores(scores, round) == []
    ensures var final := PlayRound(own, opp, first, round, configuredCycles, scores, subs);
            GetGameState(own, opp, first, round, configuredCycles, final).complete
            ==> |RoundScores(final, round)| == |ScoringOrder(own, opp, first)| * Cycles(configuredCycles)
  {
    var n, c := |own| + |opp|, Cycles(configuredCycles);
    var final := PlayRound(own, opp, first, round, configuredCycles, scores, subs);
    MulMonotone(n, 0, c);
    assert RoundWithinBounds(scores, round, n, c);
    RoundNeverOverfills(own, opp, first, round, configuredCycles, scores, subs);
    var st := GetGameState(own, opp, first, round, configuredCycles, final);
    if st.complete {
      assert |RoundScores(final, round)| >= n * c;
      assert |ScoringOrder(own, opp, first)| == n;
      assert |RoundScores(final, round)| == |ScoringOrder(own, opp, first)| * Cycles(configuredCycles);
    }
  }

  /** A round played from no scores until it is complete has given every player
      of its scoring order exactly the round's number of turns. */
  lemma CompletedRoundIsFair<P>(own: seq<P>, opp: seq<P>, first: Team, round: int,
                                configuredCycles: nat, scores: seq<Score<P>>,
                                subs: seq<Submission>, i: nat)
    requires RoundScores(scores, round) == []
    requires DistinctPlayers(ScoringOrder(own, opp, first))
    requires i < |own| + |opp|
    ensures var final := PlayRound(own, opp, first, round, configuredCycles, scores, subs);
            GetGameState(own, opp, first, round, configuredCycles, final).complete
            ==> PlayerTurns(RoundScores(final, round), ScoringOrder(own, opp, first)[i])
                == Cycles(configuredCycles)
  {
    var order := ScoringOrder(own, opp, first);
    var final := PlayRound(own, opp, first, round, configuredCycles, scores, subs);
    if GetGameState(own, opp, first, round, configuredCycles, final).complete {
      var rs := RoundScores(final, round);
      FullWhenComplete(own, opp, first, round, configuredCycles, scores, subs);
      TurnsFollowScoringOrder(own, opp, first, round, configuredCycles, scores, subs);
      PlayerTurnsAt(rs, order, i);
      TurnsAtFullCycles(|order|, Cycles(configuredCycles), i);
    }
  }

  /** A round nobody has scored in has no scores. */
  lemma {:induction false} NoScoresYet<P>(scores: seq<Score<P>>, round: int)
    requires forall i :: 0 <= i < |scores| ==> scores[i].round < round
    ensures RoundScores(scores, round) == []
  {
    if scores != [] {
      NoScoresYet(scores[1..], round);
    }
  }

  /** The buttons of the round-complete page. */
  datatype RoundAction = NextRound | EndGame | NoAction

  /** Where the round-complete page leads. */
  datatype RoundStep = PlayRoundNumber(round: int) | ShowStatistics | ShowSummary(round: int)

  /** The round-complete page for the round stored in the session (1 when none is). */
  function AfterRound(stored: Option<int>, action: RoundAction): (step: RoundStep)
    ensures step.PlayRoundNumber? <==> action == NextRound
    ensures step.PlayRoundNumber? ==> step.round == stored.GetOr(1) + 1
    ensures step.ShowStatistics? <==> action == EndGame
    ensures step.ShowSummary? ==> step.round == stored.GetOr(1)
  {
    var completed := stored.GetOr(1);
    match action
    case NextRound => PlayRoundNumber(completed + 1)
    case EndGame => ShowStatistics
    case NoAction => ShowSummary(completed)
  }

  /** Advancing opens a round with nothing scored: once its teams are set, it starts
      at cycle 1 with the opening team's first player and level plus/minus. */
  lemma NextRoundStartsFresh<P>(stored: Option<int>, own: seq<P>, opp: seq<P>, first: Team,
                                    configuredCycles: nat, scores: seq<Score<P>>)
    requires forall i :: 0 <= i < |scores| ==> scores[i].round <= stored.GetOr(1)
    requires own != [] && opp != []
    ensures var st := GetGameState(own, opp, first, AfterRound(stored, NextRound).round,
                                   configuredCycles, scores);
            && !st.complete && st.cycle == 1 && st.plusMinus == 0
            && st.current == Some(if first == Own then own[0] else opp[0])
  {
    var next := stored.GetOr(1) + 1;
    var rs := RoundScores(scores, next);
    NoScoresYet(scores, next);
    assert 0 < (|own| + |opp|) * Cycles(configuredCycles) by {
      MulMonotone(|own| + |opp|, 1, Cycles(configuredCycles));
    }
  }
}

=== FILE: pairing.dfy ===
/** Opposing players are named after the own players they face: "Opp. " followed
    by the own player's name. This module models how those opponents are created
    when a round's own team is chosen, and how the game page pairs each own
    player's total with their opponent's. */
module Pairing {
  import opened Wrappers
  import opened TurnOrder

  /** The prefix that marks an opposing player's name. */
  const OpponentPrefix: string := "Opp. "

  /** The name of the opponent facing the own player called `name`. */
  function OpponentName(name: string): (r: string)
    ensures |r| == |OpponentPrefix| + |name|
    ensures r[..|OpponentPrefix|] == OpponentPrefix && r[|OpponentPrefix|..] == name
  {
    OpponentPrefix + name
  }

  /** Different own players get differently named opponents. */
  lemma OpponentNameInjective(a: string, b: string)
    requires a != b
    ensures OpponentName(a) != OpponentName(b)
  {
    assert a == OpponentName(a)[|OpponentPrefix|..];
    assert b == OpponentName(b)[|OpponentPrefix|..];
  }

  /** The opposing team's names after the own team `ownNames` is confirmed: for
      each own player in turn, an opponent named after them joins the opposing
      team unless one of that name is already there. */
  function CreateOpponents(ownNames: seq<string>, oppNames: seq<string>): (r: seq<string>)
    ensures oppNames <= r
    ensures forall i :: 0 <= i < |ownNames| ==> OpponentName(ownNames[i]) in r
    ensures forall k :: |oppNames| <= k < |r| ==>
              exists i :: 0 <= i < |ownNames| && r[k] == OpponentName(ownNames[i])
    ensures forall k :: |oppNames| <= k < |r| ==> r[k] !in r[..k]
    decreases |ownNames|
  {
    if ownNames == [] then oppNames
    else
      var target := OpponentName(ownNames[0]);
      var next := if target in oppNames then oppNames else oppNames + [target];
      var r := CreateOpponents(ownNames[1..], next);
      assert forall i :: 1 <= i < |ownNames| ==> ownNames[i] == ownNames[1..][i - 1];
      assert target in r by {
        assert target in next;
      }
      r
  }

  /** The opponents named after `names`, one for each, in the same order. */
  function OpponentNames(names: seq<string>): (r: seq<string>)
    ensures |r| == |names|
    ensures forall i :: 0 <= i < |names| ==> r[i] == OpponentName(names[i])
  {
    if names == [] then [] else [OpponentName(names[0])] + OpponentNames(names[1..])
  }

  predicate Distinct(names: seq<string>)
  {
    forall i, j :: 0 <= i < j < |names| ==> names[i] != names[j]
  }

  /** In a new round whose own players have distinct names, exactly one opponent is
      created per own player, in the own team's order. */
  lemma {:induction false} FreshOpponents(ownNames: seq<string>, oppNames: seq<string>)
    requires Distinct(ownNames)
    requires forall i, k :: 0 <= i < |ownNames| && 0 <= k < |oppNames| ==> oppNames[k] != OpponentName(ownNames[i])
    ensures CreateOpponents(ownNames, oppNames) == oppNames + OpponentNames(ownNames)
    decreases |ownNames|
  {
    if ownNames != [] {
      var target := OpponentName(ownNames[0]);
      assert target !in oppNames;
      var next := oppNames + [target];
      forall i, k | 0 <= i < |ownNames[1..]| && 0 <= k < |next|
        ensures next[k] != OpponentName(ownNames[1..][i])
      {
        if k == |oppNames| {
          assert ownNames[1..][i] == ownNames[i + 1];
          OpponentNameInjective(ownNames[0], ownNames[i + 1]);
        }
      }
      FreshOpponents(ownNames[1..], next);
      assert next + OpponentNames(ownNames[1..]) == oppNames + OpponentNames(ownNames);
    }
  }

  /** With the opponents created fresh and the own team going first, every own
      player is followed directly by the opponent named after them. */
  lemma FreshRoundFacesOwnOpponent(ownNames: seq<string>)
    requires Distinct(ownNames)
    ensures |CreateOpponents(ownNames, [])| == |ownNames|
    ensures var order := ScoringOrder(ownNames, CreateOpponents(ownNames, []), Own);
            forall i :: 0 <= i < |ownNames| ==>
              order[2 * i] == ownNames[i] && order[2 * i + 1] == OpponentName(ownNames[i])
  {
    FreshOpponents(ownNames, []);
    assert CreateOpponents(ownNames, []) == OpponentNames(ownNames);
    InterleaveAlternates(ownNames, OpponentNames(ownNames));
  }

  /** One player's line on the game page: their id, name and game total. */
  datatype Entry<Id> = Entry(id: Id, name: string, total: int)

  /** A row of the own/opponent comparison table. */
  datatype Pair<Id> = Pair(own: Option<Entry<Id>>, opp: Option<Entry<Id>>)

  /** The first opposing entry named after the own player `name`, if any. */
  function FindOpponent<Id>(opps: seq<Entry<Id>>, name: string): (r: Option<Entry<Id>>)
    ensures r.None? <==> forall j :: 0 <= j < |opps| ==> opps[j].name != OpponentName(name)
    ensures r.Some? ==>
              exists i :: 0 <= i < |opps| && opps[i] == r.value && r.value.name == OpponentName(name)
                          && forall j :: 0 <= j < i ==> opps[j].name != OpponentName(name)
  {
    if opps == [] then None
    else if opps[0].name == OpponentName(name) then Some(opps[0])
    else
      var r := FindOpponent(opps[1..], name);
      assert forall j :: 1 <= j < |opps| ==> opps[j] == opps[1..][j - 1];
      r
  }

  /** One row per own player, with the opponent named after them or none. */
  function MatchedRows<Id>(own: seq<Entry<Id>>, opps: seq<Entry<Id>>): (r: seq<Pair<Id>>)
    ensures |r| == |own|
    ensures forall i :: 0 <= i < |own| ==> r[i] == Pair(Some(own[i]), FindOpponent(opps, own[i].name))
  {
    if own == [] then []
    else [Pair(Some(own[0]), FindOpponent(opps, own[0].name))] + MatchedRows(own[1..], opps)
  }

  /** The ids of the opponents paired with some own player. */
  function MatchedIds<Id(==)>(own: seq<Entry<Id>>, opps: seq<Entry<Id>>): (ids: set<Id>)
    ensures forall x :: x in ids ==>
              exists i :: 0 <= i < |own| && FindOpponent(opps, own[i].name).Some?
                          && FindOpponent(opps, own[i].name).value.id == x
    ensures forall i :: 0 <= i < |own| && FindOpponent(opps, own[i].name).Some? ==>
              FindOpponent(opps, own[i].name).value.id in ids
  {
    if own == [] then {}
    else
      var rest := MatchedIds(own[1..], opps);
      assert forall i :: 1 <= i < |own| ==> own[i] == own[1..][i - 1];
      match FindOpponent(opps, own[0].name)
      case Some(m) => {m.id} + rest
      case None => rest
  }

  /** One row, without an own player, for each opponent not yet paired. */
  function UnmatchedRows<Id(==)>(opps: seq<Entry<Id>>, processed: set<Id>): (r: seq<Pair<Id>>)
    ensures forall j :: 0 <= j < |r| ==>
              r[j].own.None? && r[j].opp.Some? && r[j].opp.value in opps && r[j].opp.value.id !in processed
  {
    if opps == [] then []
    else
      var rest := UnmatchedRows(opps[1..], processed);
      assert forall j :: 0 <= j < |rest| ==> rest[j].opp.value in opps;
      if opps[0].id !in processed then [Pair(None, Some(opps[0]))] + rest else rest
  }

  /** With distinct opponent ids, no opponent gets two rows of its own. */
  lemma {:induction false} UnmatchedRowsOnce<Id>(opps: seq<Entry<Id>>, processed: set<Id>)
    requires UniqueIds(opps)
    ensures forall j, j' :: 0 <= j < j' < |UnmatchedRows(opps, processed)| ==>
              UnmatchedRows(opps, processed)[j].opp != UnmatchedRows(opps, processed)[j'].opp
  {
    if opps != [] {
      var r := UnmatchedRows(opps, processed);
      var rest := UnmatchedRows(opps[1..], processed);
      UnmatchedRowsOnce(opps[1..], processed);
      if opps[0].id in processed {
        assert r == rest;
      } else {
        FirstNotRepeated(opps, processed);
        assert r == [Pair(None, Some(opps[0]))] + rest;
        forall j, j' | 0 <= j < j' < |r|
          ensures r[j].opp != r[j'].opp
        {
          assert r[j'] == rest[j' - 1];
          if j > 0 {
            assert r[j] == rest[j - 1];
          }
        }
      }
    }
  }

  /** With distinct ids, the first opponent has no row among those of the later ones. */
  lemma FirstNotRepeated<Id>(opps: seq<Entry<Id>>, processed: set<Id>)
    requires UniqueIds(opps) && opps != []
    ensures forall j :: 0 <= j < |UnmatchedRows(opps[1..], processed)| ==>
              UnmatchedRows(opps[1..], processed)[j].opp != Some(opps[0])
  {
    var rest := UnmatchedRows(opps[1..], processed);
    forall j | 0 <= j < |rest|
      ensures rest[j].opp != Some(opps[0])
    {
      var k :| 0 <= k < |opps[1..]| && opps[1..][k] == rest[j].opp.value;
      assert opps[k + 1].id != opps[0].id;
    }
  }


  /** Every opponent outside `processed` gets a row of its own. */
  lemma {:induction false} UnmatchedCovers<Id>(opps: seq<Entry<Id>>, processed: set<Id>, k: int)
    requires 0 <= k < |opps| && opps[k].id !in processed
    ensures exists j :: 0 <= j < |UnmatchedRows(opps, processed)| && UnmatchedRows(opps, processed)[j].opp == Some(opps[k])
  {
    var r := UnmatchedRows(opps, processed);
    var rest := UnmatchedRows(opps[1..], processed);
    var head := if opps[0].id !in processed then [Pair(None, Some(opps[0]))] else [];
    assert r == head + rest;
    if k == 0 {
      assert r[0] == Pair(None, Some(opps[0]));
    } else {
      UnmatchedCovers(opps[1..], processed, k - 1);
      var j :| 0 <= j < |rest| && rest[j].opp == Some(opps[1..][k - 1]);
      assert r[|head| + j] == rest[j];
    }
  }

  /** Rows without repeated opponents stay so after any rows put in front of them. */
  lemma TailDistinct<Id>(rows: seq<Pair<Id>>, rest: seq<Pair<Id>>)
    requires forall j, j' :: 0 <= j < j' < |rest| ==> rest[j].opp != rest[j'].opp
    ensures forall j, j' :: |rows| <= j < j' < |rows + rest| ==> (rows + rest)[j].opp != (rows + rest)[j'].opp
  {
    forall j, j' | |rows| <= j < j' < |rows + rest|
      ensures (rows + rest)[j].opp != (rows + rest)[j'].opp
    {
      assert (rows + rest)[j] == rest[j - |rows|];
      assert (rows + rest)[j'] == rest[j' - |rows|];
    }
  }

  /** The comparison table of the game page: the own players' rows, then the
      rows of the opponents nobody was paired with. */
  function PairTotals<Id(==)>(own: seq<Entry<Id>>, opps: seq<Entry<Id>>): (r: seq<Pair<Id>>)
    ensures |r| >= |own|
    ensures forall i :: 0 <= i < |own| ==>
              r[i].own == Some(own[i]) && r[i].opp == FindOpponent(opps, own[i].name)
    ensures forall j :: |own| <= j < |r| ==> r[j].own.None? && r[j].opp.Some?
    ensures forall i, j :: 0 <= i < |own| <= j < |r| && r[i].opp.Some? ==>
              r[j].opp.value.id != r[i].opp.value.id
    ensures forall j :: |own| <= j < |r| ==> r[j].opp.value in opps
    ensures UniqueIds(opps) ==> forall j, j' :: |own| <= j < j' < |r| ==> r[j].opp != r[j'].opp
  {
    var rows := MatchedRows(own, opps);
    var processed := MatchedIds(own, opps);
    var rest := UnmatchedRows(opps, processed);
    if UniqueIds(opps) then
      UnmatchedRowsOnce(opps, processed);
      TailDistinct(rows, rest);
      rows + rest
    else
      rows + rest
  }

  predicate UniqueIds<Id(==)>(opps: seq<Entry<Id>>)
  {
    forall i, j :: 0 <= i < j < |opps| ==> opps[i].id != opps[j].id
  }

  /** No opponent is left off the table: each appears in some row, paired with an
      own player or on a row of its own. */
  lemma EveryOpponentShown<Id>(own: seq<Entry<Id>>, opps: seq<Entry<Id>>)
    requires UniqueIds(opps)
    ensures var r := PairTotals(own, opps);
            forall k :: 0 <= k < |opps| ==> exists j :: 0 <= j < |r| && r[j].opp == Some(opps[k])
  {
    var r := PairTotals(own, opps);
    var processed := MatchedIds(own, opps);
    forall k | 0 <= k < |opps|
      ensures exists j :: 0 <= j < |r| && r[j].opp == Some(opps[k])
    {
      if opps[k].id in processed {
        MatchedOpponentShown(own, opps, k);
      } else {
        UnmatchedOpponentShown(own, opps, k);
      }
    }
  }

  /** An opponent whose id was matched sits in the row of the own player it faces. */
  lemma MatchedOpponentShown<Id>(own: seq<Entry<Id>>, opps: seq<Entry<Id>>, k: int)
    requires UniqueIds(opps) && 0 <= k < |opps| && opps[k].id in MatchedIds(own, opps)
    ensures exists j :: 0 <= j < |PairTotals(own, opps)| && PairTotals(own, opps)[j].opp == Some(opps[k])
  {
    var i :| 0 <= i < |own| && FindOpponent(opps, own[i].name).Some?
             && FindOpponent(opps, own[i].name).value.id == opps[k].id;
    var m := FindOpponent(opps, own[i].name).value;
    var p :| 0 <= p < |opps| && opps[p] == m && m.name == OpponentName(own[i].name)
             && forall j :: 0 <= j < p ==> opps[j].name != OpponentName(own[i].name);
    assert p == k;
    assert PairTotals(own, opps)[i].opp == Some(opps[k]);
  }

  /** An opponent whose id was not matched gets one of the rows after the own players'. */
  lemma UnmatchedOpponentShown<Id>(own: seq<Entry<Id>>, opps: seq<Entry<Id>>, k: int)
    requires 0 <= k < |opps| && opps[k].id !in MatchedIds(own, opps)
    ensures exists j :: 0 <= j < |PairTotals(own, opps)| && PairTotals(own, opps)[j].opp == Some(opps[k])
  {
    var processed := MatchedIds(own, opps);
    var rest := UnmatchedRows(opps, processed);
    assert PairTotals(own, opps) == MatchedRows(own, opps) + rest;
    UnmatchedCovers(opps, processed, k);
    var j :| 0 <= j < |rest| && rest[j].opp == Some(opps[k]);
    assert PairTotals(own, opps)[|own| + j] == rest[j];
  }

}

=== FILE: rack.dfy ===
/** The 9-pin rack of Somerset skittles under the "reset on clear" rule used by the
    turn-entry form: a turn is three rolls, and whenever the standing pins are all
    knocked down the rack is set up full again before the next roll. */
module Rack {

  /** Pins in a full rack. */
  const Pins: int := 9

  /** A value the roll fields of the turn form accept. */
  predicate IsRoll(n: int)
  {
    0 <= n <= Pins
  }

  /** Physical reference: the pins standing after `knocked` of `standing` pins fall,
      with a cleared rack set up full again. */
  function Knock(standing: int, knocked: int): int
  {
    if standing - knocked == 0 then Pins else standing - knocked
  }

  /** Pins standing before roll 2, as the form computes it: a full rack after a
      first-roll strike, otherwise what roll 1 left. */
  function PinsBeforeRoll2(roll1: int): (p: int)
    requires IsRoll(roll1)
    ensures 1 <= p <= Pins
    ensures p == Knock(Pins, roll1)
  {
    if roll1 == Pins then Pins else Pins - roll1
  }

  /** Pins standing before roll 3, as the form computes it. After a first-roll strike
      the rack is full again only if roll 2 also cleared it; otherwise the rack is full
      again once rolls 1 and 2 together reach 9. */
  function PinsBeforeRoll3(roll1: int, roll2: int): (p: int)
    requires IsRoll(roll1) && IsRoll(roll2)
    ensures 1 <= p <= Pins
    // whenever roll 2 was possible, the form agrees with the physical rack
    ensures roll2 <= PinsBeforeRoll2(roll1) ==> p == Knock(Knock(Pins, roll1), roll2)
  {
    var resetBeforeRoll2 := roll1 == Pins;
    if resetBeforeRoll2 then
      (if roll2 < Pins then Pins - roll2 else Pins)
    else
      var cumulative := roll1 + roll2;
      if cumulative < Pins then Pins - cumulative else Pins
  }

  /** Physical reference: each roll knocks down no more pins than the rack holds at
      that moment, the rack being reset whenever it is cleared. */
  predicate PhysicallyPossible(roll1: int, roll2: int, roll3: int)
  {
    && 0 <= roll1 && 0 <= roll2 && 0 <= roll3
    && roll1 <= Pins
    && roll2 <= Knock(Pins, roll1)
    && roll3 <= Knock(Knock(Pins, roll1), roll2)
  }

  /** The form's rack rule accepts exactly the physically possible turns. */
  lemma RackRuleIsPhysical(roll1: int, roll2: int, roll3: int)
    requires IsRoll(roll1) && IsRoll(roll2) && IsRoll(roll3)
    ensures (roll2 <= PinsBeforeRoll2(roll1) && roll3 <= PinsBeforeRoll3(roll1, roll2))
            <==> PhysicallyPossible(roll1, roll2, roll3)
  {
  }

  /** With rolls in range, a roll-2 overshoot leaves the form assuming a full rack
      for roll 3, so roll 3 can never overshoot in the same turn. */
  lemma AtMostOneOvershoot(roll1: int, roll2: int, roll3: int)
    requires IsRoll(roll1) && IsRoll(roll2) && IsRoll(roll3)
    requires roll2 > PinsBeforeRoll2(roll1)
    ensures PinsBeforeRoll3(roll1, roll2) == Pins
    ensures roll3 <= PinsBeforeRoll3(roll1, roll2)
  {
  }
}

=== FILE: results.dfy ===
/** Win, loss and draw: how a game's result follows from the two team totals, and
    the tallies of results kept by the statistics pages. */
module Results {
  import opened Wrappers

  datatype Outcome = Win | Loss | Draw

  /** The result of a game from the own team's point of view. */
  function Classify(own: int, opp: int): (r: Outcome)
    ensures r == Win <==> own > opp
    ensures r == Loss <==> own < opp
    ensures r == Draw <==> own == opp
  {
    if own > opp then Win
    else if own < opp then Loss
    else Draw
  }

  /** The result as the opponent statistics derive it, from the sign of the score
      difference alone. */
  function ClassifyByDifference(diff: int): (r: Outcome)
  {
    if diff > 0 then Win
    else if diff < 0 then Loss
    else Draw
  }

  /** Both derivations give the same result. */
  lemma DifferenceAgrees(own: int, opp: int)
    ensures ClassifyByDifference(own - opp) == Classify(own, opp)
  {
  }

  /** The result seen from the other side. */
  function Mirror(o: Outcome): Outcome
  {
    match o
    case Win => Loss
    case Loss => Win
    case Draw => Draw
  }

  /** Swapping the teams turns a win into a loss and keeps a draw. */
  lemma ClassifyMirror(own: int, opp: int)
    ensures Classify(opp, own) == Mirror(Classify(own, opp))
  {
  }

  /** The label shown for a result, which is also the value of the result filter. */
  function Name(o: Outcome): string
  {
    match o
    case Win => "Win"
    case Loss => "Loss"
    case Draw => "Draw"
  }

  datatype GameTotals = GameTotals(own: int, opp: int)

  function Result(g: GameTotals): Outcome
  {
    Classify(g.own, g.opp)
  }

  datatype Record = Record(wins: int, losses: int, draws: int)

  /** A record with one more game of result `o`. */
  function Add(r: Record, o: Outcome): Record
  {
    match o
    case Win => Record(r.wins + 1, r.losses, r.draws)
    case Loss => Record(r.wins, r.losses + 1, r.draws)
    case Draw => Record(r.wins, r.losses, r.draws + 1)
  }

  function Plus(r: Record, other: Record): Record
  {
    Record(r.wins + other.wins, r.losses + other.losses, r.draws + other.draws)
  }

  /** The counters of wins, losses and draws over a list of games. The views
      update them game by game; addition commutes, so the order is immaterial. */
  function Tally(games: seq<GameTotals>): (t: Record)
    ensures t.wins + t.losses + t.draws == |games|
  {
    if games == [] then Record(0, 0, 0)
    else Add(Tally(games[1..]), Result(games[0]))
  }

  /** The games with result `o`, in order. */
  function WithResult(games: seq<GameTotals>, o: Outcome): (r: seq<GameTotals>)
    ensures |r| <= |games|
    ensures forall i :: 0 <= i < |r| ==> Result(r[i]) == o
  {
    if games == [] then []
    else
      var rest := WithResult(games[1..], o);
      if Result(games[0]) == o then [games[0]] + rest else rest
  }

  /** Filtering keeps the order: the games of two consecutive stretches are kept
      as the kept games of the first stretch followed by those of the second. */
  lemma {:induction false} WithResultAppend(a: seq<GameTotals>, b: seq<GameTotals>, o: Outcome)
    ensures WithResult(a + b, o) == WithResult(a, o) + WithResult(b, o)
  {
    if a == [] {
      assert a + b == b;
    } else {
      var x, rest := a[0], a[1..];
      assert a == [x] + rest;
      assert a + b == [x] + (rest + b);
      WithResultAppend(rest, b, o);
      WithResultCons(x, rest + b, o);
      WithResultCons(x, rest, o);
    }
  }

  /** The filter keeps every game with result `o`, as often as it occurs, and no
      other game. */
  lemma {:induction false} WithResultKeepsAll(games: seq<GameTotals>, o: Outcome)
    ensures forall g :: multiset(WithResult(games, o))[g]
                        == (if Result(g) == o then multiset(games)[g] else 0)
  {
    if games != [] {
      WithResultKeepsAll(games[1..], o);
      assert games == [games[0]] + games[1..];
    }
  }

  lemma WithResultCons(x: GameTotals, rest: seq<GameTotals>, o: Outcome)
    ensures WithResult([x] + rest, o) == (if Result(x) == o then [x] else []) + WithResult(rest, o)
  {
    assert ([x] + rest)[1..] == rest;
  }

  /** Each counter counts exactly the games with that result. */
  lemma {:induction false} TallyCountsResults(games: seq<GameTotals>)
    ensures Tally(games).wins == |WithResult(games, Win)|
    ensures Tally(games).losses == |WithResult(games, Loss)|
    ensures Tally(games).draws == |WithResult(games, Draw)|
  {
    if games != [] {
      TallyCountsResults(games[1..]);
    }
  }

  /** Tallies of consecutive stretches of games add up. */
  lemma {:induction false} TallyAppend(a: seq<GameTotals>, b: seq<GameTotals>)
    ensures Tally(a + b) == Plus(Tally(a), Tally(b))
  {
    if a == [] {
      assert a + b == b;
      var t := Tally(b);
      assert Plus(Record(0, 0, 0), t) == t;
    } else {
      var ab := a + b;
      assert ab[1..] == a[1..] + b && ab[0] == a[0];
      TallyAppend(a[1..], b);
      var o := Result(a[0]);
      assert Tally(ab) == Add(Tally(a[1..] + b), o);
      assert Tally(a) == Add(Tally(a[1..]), o);
      AddPlus(Tally(a[1..]), Tally(b), o);
    }
  }

  lemma AddPlus(x: Record, y: Record, o: Outcome)
    ensures Add(Plus(x, y), o) == Plus(Add(x, o), y)
  {}

  /** The past-games result filter: a filter naming a result keeps the games with
      that result; any other filter keeps every game. */
  function FilterByResult(games: seq<GameTotals>, filter: string): (r: seq<GameTotals>)
    ensures filter != "Win" && filter != "Loss" && filter != "Draw" ==> r == games
    ensures forall o: Outcome :: filter == Name(o) ==> r == WithResult(games, o)
  {
    if filter == "Win" then WithResult(games, Win)
    else if filter == "Loss" then WithResult(games, Loss)
    else if filter == "Draw" then WithResult(games, Draw)
    else games
  }

  /** The three result filters split the games between them, and each shows as
      many games as its counter says. */
  lemma ResultFiltersPartition(games: seq<GameTotals>)
    ensures |FilterByResult(games, "Win")| == Tally(games).wins
    ensures |FilterByResult(games, "Loss")| == Tally(games).losses
    ensures |FilterByResult(games, "Draw")| == Tally(games).draws
    ensures |FilterByResult(games, "Win")| + |FilterByResult(games, "Loss")|
            + |FilterByResult(games, "Draw")| == |games|
  {
    TallyCountsResults(games);
  }

  /** One player's aggregated total in one game. */
  datatype PlayerTotal<P> = PlayerTotal(player: P, total: int)

  /** The sum of the totals of the players in `members`. Unlike
      `GameState.TeamTotal`, which sums the stored score rows of a round's team
      list, this sums per-player aggregates against a set of player ids, as the
      statistics pages do after grouping the scores by player. */
  function SumOf<P>(totals: seq<PlayerTotal<P>>, members: set<P>): int
  {
    if totals == [] then 0
    else (if totals[0].player in members then totals[0].total else 0) + SumOf(totals[1..], members)
  }

  /** A game's result on the game and past-games pages: each team's total sums its
      own players' totals. */
  function GameResult<P>(totals: seq<PlayerTotal<P>>, own: set<P>, opp: set<P>): (r: Outcome)
    ensures r == Win <==> SumOf(totals, own) > SumOf(totals, opp)
    ensures r == Loss <==> SumOf(totals, own) < SumOf(totals, opp)
    ensures r == Draw <==> SumOf(totals, own) == SumOf(totals, opp)
  {
    Classify(SumOf(totals, own), SumOf(totals, opp))
  }

  /** The team totals of a game as the player statistics accumulate them: a
      player's total goes to the own team if they are in it, else to the opposing
      team if they are in that one. */
  function TeamTotals<P(==)>(totals: seq<PlayerTotal<P>>, own: set<P>, opp: set<P>): (g: GameTotals)
  {
    if totals == [] then GameTotals(0, 0)
    else
      var rest := TeamTotals(totals[1..], own, opp);
      var x := totals[0];
      if x.player in own then rest.(own := rest.own + x.total)
      else if x.player in opp then rest.(opp := rest.opp + x.total)
      else rest
  }

  /** The accumulation gives the own team every own player's total and the opposing
      team the totals of opposing players who are not also own players. */
  lemma {:induction false} TeamTotalsSums<P>(totals: seq<PlayerTotal<P>>, own: set<P>, opp: set<P>)
    ensures TeamTotals(totals, own, opp) == GameTotals(SumOf(totals, own), SumOf(totals, opp - own))
  {
    if totals != [] {
      TeamTotalsSums(totals[1..], own, opp);
    }
  }

  /** With disjoint teams, the player statistics and the game page agree on a
      game's result. */
  lemma ResultViewsAgree<P>(totals: seq<PlayerTotal<P>>, own: set<P>, opp: set<P>)
    requires own !! opp
    ensures Result(TeamTotals(totals, own, opp)) == GameResult(totals, own, opp)
  {
    TeamTotalsSums(totals, own, opp);
    assert opp - own == opp;
  }

  /** One game as the player statistics see it. */
  datatype GameTeams<P> = GameTeams(own: set<P>, opp: set<P>, totals: seq<PlayerTotal<P>>)

  /** A player's wins, losses and draws, counted over the games in which they played
      for the own team. */
  function PlayerRecord<P(==)>(games: seq<GameTeams<P>>, player: P): (r: Record)
    ensures r.wins + r.losses + r.draws <= |games|
  {
    if games == [] then Record(0, 0, 0)
    else
      var rest := PlayerRecord(games[1..], player);
      var g := games[0];
      if player in g.own then Add(rest, Result(TeamTotals(g.totals, g.own, g.opp)))
      else rest
  }

  /** The games in which `player` played for the own team, in order. */
  function OwnGames<P(==)>(games: seq<GameTeams<P>>, player: P): (r: seq<GameTeams<P>>)
    ensures |r| <= |games|
    ensures forall i :: 0 <= i < |r| ==> player in r[i].own
  {
    if games == [] then []
    else (if player in games[0].own then [games[0]] else []) + OwnGames(games[1..], player)
  }

  /** A player's own-team games are every game they played for the own team, as
      often as it occurs, and no other. */
  lemma {:induction false} OwnGamesKeepsAll<P>(games: seq<GameTeams<P>>, player: P)
    ensures forall g :: multiset(OwnGames(games, player))[g]
                        == (if player in g.own then multiset(games)[g] else 0)
  {
    if games != [] {
      OwnGamesKeepsAll(games[1..], player);
      assert games == [games[0]] + games[1..];
    }
  }

  /** The team totals of each game, in order. */
  function TeamResults<P(==)>(games: seq<GameTeams<P>>): (r: seq<GameTotals>)
    ensures |r| == |games|
  {
    if games == [] then []
    else [TeamTotals(games[0].totals, games[0].own, games[0].opp)] + TeamResults(games[1..])
  }

  /** A player's record is the tally of their own-team games; in particular
      wins, losses and draws add up to the number of those games. */
  lemma {:induction false} PlayerRecordIsTally<P>(games: seq<GameTeams<P>>, player: P)
    ensures PlayerRecord(games, player) == Tally(TeamResults(OwnGames(games, player)))
    ensures var r := PlayerRecord(games, player);
            r.wins + r.losses + r.draws == |OwnGames(games, player)|
  {
    if games != [] {
      var g := games[0];
      PlayerRecordIsTally(games[1..], player);
      var og := OwnGames(games[1..], player);
      if player in g.own {
        var first := TeamTotals(g.totals, g.own, g.opp);
        assert OwnGames(games, player) == [g] + og;
        assert ([g] + og)[1..] == og;
        assert TeamResults([g] + og) == [first] + TeamResults(og);
        assert ([first] + TeamResults(og))[1..] == TeamResults(og);
      } else {
        assert OwnGames(games, player) == og;
      }
    }
  }

  /** One game against the selected opponent. */
  datatype OpponentGame = OpponentGame(location: Option<string>, own: int, opp: int)

  datatype LocationStats = LocationStats(wins: int, losses: int, draws: int, diffSum: int, count: int)

  function LocationName(g: OpponentGame): string
  {
    g.location.GetOr("Unknown Location")
  }

  /** The per-location statistics. The view updates them game by game in date
      order; every update adds to counters, so the order is immaterial. */
  function ByLocation(games: seq<OpponentGame>): (m: map<string, LocationStats>)
    ensures forall loc :: loc in m ==> m[loc].count == m[loc].wins + m[loc].losses + m[loc].draws
  {
    if games == [] then map[]
    else
      var m := ByLocation(games[1..]);
      var g := games[0];
      var loc := LocationName(g);
      var s := if loc in m then m[loc] else LocationStats(0, 0, 0, 0, 0);
      var diff := g.own - g.opp;
      var s' := s.(count := s.count + 1, diffSum := s.diffSum + diff);
      var s'' := match ClassifyByDifference(diff)
                 case Win => s'.(wins := s'.wins + 1)
                 case Loss => s'.(losses := s'.losses + 1)
                 case Draw => s'.(draws := s'.draws + 1);
      m[loc := s'']
  }

  /** The games played at one location, in order. */
  function AtLocation(games: seq<OpponentGame>, loc: string): (r: seq<OpponentGame>)
    ensures |r| <= |games|
    ensures forall i :: 0 <= i < |r| ==> LocationName(r[i]) == loc
  {
    if games == [] then []
    else (if LocationName(games[0]) == loc then [games[0]] else []) + AtLocation(games[1..], loc)
  }

  /** The games at `loc` are every game played there, as often as it occurs, and
      no other. */
  lemma {:induction false} AtLocationKeepsAll(games: seq<OpponentGame>, loc: string)
    ensures forall g :: multiset(AtLocation(games, loc))[g]
                        == (if LocationName(g) == loc then multiset(games)[g] else 0)
  {
    if games != [] {
      AtLocationKeepsAll(games[1..], loc);
      assert games == [games[0]] + games[1..];
    }
  }

  function Totals(games: seq<OpponentGame>): (r: seq<GameTotals>)
    ensures |r| == |games|
  {
    if games == [] then []
    else [GameTotals(games[0].own, games[0].opp)] + Totals(games[1..])
  }

  function DiffSum(games: seq<OpponentGame>): int
  {
    if games == [] then 0
    else (games[0].own - games[0].opp) + DiffSum(games[1..])
  }

  /** Reference summary of a list of games. */
  function Summary(games: seq<OpponentGame>): LocationStats
  {
    var t := Tally(Totals(games));
    LocationStats(t.wins, t.losses, t.draws, DiffSum(games), |games|)
  }

  /** A location has an entry exactly when a game was played there, and its entry
      summarises exactly the games played there. */
  lemma {:induction false} ByLocationSummarises(games: seq<OpponentGame>, loc: string)
    ensures loc in ByLocation(games) <==> AtLocation(games, loc) != []
    ensures loc in ByLocation(games) ==> ByLocation(games)[loc] == Summary(AtLocation(games, loc))
  {
    if games != [] {
      var g := games[0];
      ByLocationSummarises(games[1..], loc);
      var at := AtLocation(games[1..], loc);
      if LocationName(g) == loc {
        var at' := [g] + at;
        assert AtLocation(games, loc) == at';
        assert at'[1..] == at;
        var gt := GameTotals(g.own, g.opp);
        assert Totals(at') == [gt] + Totals(at);
        assert ([gt] + Totals(at))[1..] == Totals(at);
        assert Tally(Totals(at')) == Add(Tally(Totals(at)), Result(gt));
        assert DiffSum(at') == (g.own - g.opp) + DiffSum(at);
        DifferenceAgrees(g.own, g.opp);
      } else {
        assert AtLocation(games, loc) == at;
        var m := ByLocation(games[1..]);
        assert ByLocation(games) == m[LocationName(g) := ByLocation(games)[LocationName(g)]];
      }
    }
  }
}

=== FILE: score_form.dfy ===
/** The turn-entry form: three roll fields, each a required whole number in 0..9,
    and the form-wide check that no roll exceeds the pins standing before it. */
module ScoreForm {
  import opened Wrappers
  import opened Rack

  datatype Field = Roll1 | Roll2 | Roll3

  /** What the browser submitted for one roll field. */
  datatype RawRoll = Blank | NotANumber | Number(n: int)

  /** One submitted turn. */
  datatype Submission = Submission(roll1: RawRoll, roll2: RawRoll, roll3: RawRoll)
  {
    function Get(f: Field): RawRoll
    {
      match f
      case Roll1 => roll1
      case Roll2 => roll2
      case Roll3 => roll3
    }
  }

  /** The reasons a roll field is reported. The first four come from the field
      declarations, the last two from the form-wide check. */
  datatype Problem =
    | Required                              // empty field
    | NotWhole                              // not an integer
    | BelowMinimum(limit: int)              // below min_value
    | AboveMaximum(limit: int)              // above max_value
    | MissingRoll                           // absent from the cleaned data
    | ExceedsPins(score: int, standing: int) // more than the pins standing before the roll

  datatype FieldError = FieldError(field: Field, problem: Problem)

  datatype Turn = Turn(roll1: int, roll2: int, roll3: int)

  /** The outcome of validating a submission: an accepted turn with its total, or
      every error collected on the way. */
  datatype FormResult = Valid(turn: Turn, total: int) | Invalid(errors: seq<FieldError>)

  /** The outcome of cleaning one field on its own. */
  datatype FieldOutcome = Cleaned(value: int) | Rejected(problem: Problem)

  /** The roll field declaration: required, whole, at least 0, at most 9. */
  function CleanField(raw: RawRoll): (r: FieldOutcome)
    ensures r.Cleaned? <==> raw.Number? && IsRoll(raw.n)
    ensures r.Cleaned? ==> r.value == raw.n
    ensures r.Rejected? ==> r.problem in {Required, NotWhole, BelowMinimum(0), AboveMaximum(Pins)}
    ensures raw.Blank? ==> r == Rejected(Required)
    ensures raw.NotANumber? ==> r == Rejected(NotWhole)
    ensures raw.Number? && raw.n < 0 ==> r == Rejected(BelowMinimum(0))
    ensures raw.Number? && raw.n > Pins ==> r == Rejected(AboveMaximum(Pins))
  {
    match raw
    case Blank => Rejected(Required)
    case NotANumber => Rejected(NotWhole)
    case Number(n) =>
      if n < 0 then Rejected(BelowMinimum(0))
      else if n > Pins then Rejected(AboveMaximum(Pins))
      else Cleaned(n)
  }

  /** The value a field leaves in the cleaned data: only a field that passed. */
  function CleanedValue(raw: RawRoll): (v: Option<int>)
    ensures v.None? <==> CleanField(raw).Rejected?
    ensures v.Some? ==> raw.Number? && v.value == raw.n && IsRoll(v.value)
  {
    match CleanField(raw)
    case Cleaned(v) => Some(v)
    case Rejected(_) => None
  }

  /** The errors the field declaration attaches to field `f`. */
  function FieldErrors(f: Field, raw: RawRoll): (errs: seq<FieldError>)
    ensures errs == [] <==> CleanField(raw).Cleaned?
    ensures forall e :: e in errs ==> e.field == f && !e.problem.MissingRoll? && !e.problem.ExceedsPins?
    ensures CleanField(raw).Rejected? ==> errs == [FieldError(f, CleanField(raw).problem)]
  {
    match CleanField(raw)
    case Cleaned(_) => []
    case Rejected(p) => [FieldError(f, p)]
  }

  /** The form-wide "required" error for roll `f` when it has no cleaned value. */
  function MissingError(f: Field, v: Option<int>): (errs: seq<FieldError>)
    ensures multiset(errs)[FieldError(f, MissingRoll)] == (if v.None? then 1 else 0)
    ensures forall e :: e in errs ==> e == FieldError(f, MissingRoll)
  {
    if v.None? then [FieldError(f, MissingRoll)] else []
  }

  /** The rack checks of the form-wide clean step, on three present rolls. Both
      checks always run: a roll-2 error does not stop roll 3 from being checked. */
  function RackErrors(roll1: int, roll2: int, roll3: int): (errs: seq<FieldError>)
    requires IsRoll(roll1) && IsRoll(roll2) && IsRoll(roll3)
    ensures FieldError(Roll2, ExceedsPins(roll2, PinsBeforeRoll2(roll1))) in errs
            <==> roll2 > PinsBeforeRoll2(roll1)
    ensures FieldError(Roll3, ExceedsPins(roll3, PinsBeforeRoll3(roll1, roll2))) in errs
            <==> roll3 > PinsBeforeRoll3(roll1, roll2)
    ensures forall e :: e in errs ==> e.problem.ExceedsPins? && e.field != Roll1
    ensures forall e :: e in errs ==>
              e == FieldError(Roll2, ExceedsPins(roll2, PinsBeforeRoll2(roll1)))
              || e == FieldError(Roll3, ExceedsPins(roll3, PinsBeforeRoll3(roll1, roll2)))
    ensures |errs| <= 1
    ensures errs == [] <==> PhysicallyPossible(roll1, roll2, roll3)
  {
    var p2 := PinsBeforeRoll2(roll1);
    var p3 := PinsBeforeRoll3(roll1, roll2);
    (if roll2 > p2 then [FieldError(Roll2, ExceedsPins(roll2, p2))] else [])
    + (if roll3 > p3 then [FieldError(Roll3, ExceedsPins(roll3, p3))] else [])
  }

  /** The form-wide clean step on the cleaned data. Every missing roll is reported;
      if any is missing the rack checks are skipped. */
  function CleanForm(v1: Option<int>, v2: Option<int>, v3: Option<int>): (errs: seq<FieldError>)
    requires v1.Some? ==> IsRoll(v1.value)
    requires v2.Some? ==> IsRoll(v2.value)
    requires v3.Some? ==> IsRoll(v3.value)
    ensures (v1.None? || v2.None? || v3.None?) ==>
              forall e :: e in errs ==> e.problem == MissingRoll
    ensures FieldError(Roll1, MissingRoll) in errs <==> v1.None?
    ensures FieldError(Roll2, MissingRoll) in errs <==> v2.None?
    ensures FieldError(Roll3, MissingRoll) in errs <==> v3.None?
  {
    var missing := MissingError(Roll1, v1) + MissingError(Roll2, v2) + MissingError(Roll3, v3);
    MissingErrorsReported(v1, v2, v3);
    if v1.None? || v2.None? || v3.None? then missing
    else RackErrors(v1.value, v2.value, v3.value)
  }

  /** The "required" errors of the three rolls: one for each absent roll, and nothing else. */
  lemma MissingErrorsReported(v1: Option<int>, v2: Option<int>, v3: Option<int>)
    ensures var missing := MissingError(Roll1, v1) + MissingError(Roll2, v2) + MissingError(Roll3, v3);
            && (forall e :: e in missing ==> e.problem == MissingRoll)
            && (FieldError(Roll1, MissingRoll) in missing <==> v1.None?)
            && (FieldError(Roll2, MissingRoll) in missing <==> v2.None?)
            && (FieldError(Roll3, MissingRoll) in missing <==> v3.None?)
  {
  }

  /** All errors of a submission, in the order they are attached: the field errors
      of roll 1, 2 and 3, then those of the form-wide clean step. */
  function Errors(s: Submission): (errs: seq<FieldError>)
    ensures errs == [] <==> Acceptable(s)
  {
    FieldErrors(Roll1, s.roll1) + FieldErrors(Roll2, s.roll2) + FieldErrors(Roll3, s.roll3)
    + CleanForm(CleanedValue(s.roll1), CleanedValue(s.roll2), CleanedValue(s.roll3))
  }

  /** True when a submission is three numbers in 0..9 that a rack could produce. */
  predicate Acceptable(s: Submission)
  {
    && s.roll1.Number? && s.roll2.Number? && s.roll3.Number?
    && IsRoll(s.roll1.n) && IsRoll(s.roll2.n) && IsRoll(s.roll3.n)
    && PhysicallyPossible(s.roll1.n, s.roll2.n, s.roll3.n)
  }

  /** Validates a submitted turn. The form is valid exactly when no error was
      attached; the accepted turn's total is the plain sum of its rolls. */
  function Validate(s: Submission): (r: FormResult)
    ensures r.Valid? <==> Acceptable(s)
    ensures r.Valid? ==> r.turn == Turn(s.roll1.n, s.roll2.n, s.roll3.n)
    ensures r.Valid? ==> r.total == s.roll1.n + s.roll2.n + s.roll3.n && 0 <= r.total <= 3 * Pins
    ensures r.Invalid? ==> r.errors == Errors(s) && r.errors != []
  {
    var errs := Errors(s);
    if errs == [] then
      var t := Turn(s.roll1.n, s.roll2.n, s.roll3.n);
      Valid(t, t.roll1 + t.roll2 + t.roll3)
    else
      Invalid(errs)
  }

  /** A roll outside 0..9 is rejected whatever the other two rolls are: its field
      carries the range error, and the clean step finds it missing. */
  lemma OutOfRangeRejected(s: Submission, f: Field)
    requires s.Get(f).Number? && !IsRoll(s.Get(f).n)
    ensures Validate(s).Invalid?
    ensures FieldError(f, if s.Get(f).n < 0 then BelowMinimum(0) else AboveMaximum(Pins))
            in Validate(s).errors
    ensures FieldError(f, MissingRoll) in Validate(s).errors
  {
    var fieldPart := FieldErrors(Roll1, s.roll1) + FieldErrors(Roll2, s.roll2) + FieldErrors(Roll3, s.roll3);
    assert FieldErrors(f, s.Get(f))[0] in fieldPart;
  }

  /** When any roll fails its field check, the rack checks are skipped: no error
      of the submission is a rack error. */
  lemma NoRackErrorWhenMissing(s: Submission)
    requires exists f: Field :: CleanField(s.Get(f)).Rejected?
    ensures forall e :: e in Errors(s) ==> !e.problem.ExceedsPins?
  {
    var v1, v2, v3 := CleanedValue(s.roll1), CleanedValue(s.roll2), CleanedValue(s.roll3);
    assert v1.None? || v2.None? || v3.None?;
  }

  /** When any roll fails its field check, the clean step adds exactly one
      "required" error to each failed roll and none to the others. */
  lemma MissingRollsReported(s: Submission, f: Field)
    requires exists g: Field :: CleanField(s.Get(g)).Rejected?
    ensures multiset(Errors(s))[FieldError(f, MissingRoll)]
            == (if CleanField(s.Get(f)).Rejected? then 1 else 0)
  {
    var v1, v2, v3 := CleanedValue(s.roll1), CleanedValue(s.roll2), CleanedValue(s.roll3);
    var fieldPart := FieldErrors(Roll1, s.roll1) + FieldErrors(Roll2, s.roll2) + FieldErrors(Roll3, s.roll3);
    ErrorsWhenMissing(s);
    MissingCount(f, fieldPart, v1, v2, v3);
  }

  /** With a roll missing, the clean step contributes only the missing-roll errors. */
  lemma ErrorsWhenMissing(s: Submission)
    requires exists f: Field :: CleanField(s.Get(f)).Rejected?
    ensures var v1, v2, v3 := CleanedValue(s.roll1), CleanedValue(s.roll2), CleanedValue(s.roll3);
            Errors(s) == FieldErrors(Roll1, s.roll1) + FieldErrors(Roll2, s.roll2) + FieldErrors(Roll3, s.roll3)
                         + (MissingError(Roll1, v1) + MissingError(Roll2, v2) + MissingError(Roll3, v3))
  {
    var v1, v2, v3 := CleanedValue(s.roll1), CleanedValue(s.roll2), CleanedValue(s.roll3);
    assert v1.None? || v2.None? || v3.None?;
  }

  /** Counting one field's missing-roll errors after the field errors. */
  lemma MissingCount(f: Field, fieldPart: seq<FieldError>, v1: Option<int>, v2: Option<int>, v3: Option<int>)
    requires forall x :: x in fieldPart ==> !x.problem.MissingRoll?
    ensures multiset(fieldPart + (MissingError(Roll1, v1) + MissingError(Roll2, v2) + MissingError(Roll3, v3)))
              [FieldError(f, MissingRoll)]
            == (if (f == Roll1 && v1.None?) || (f == Roll2 && v2.None?) || (f == Roll3 && v3.None?) then 1 else 0)
  {
    var e := FieldError(f, MissingRoll);
    var m1, m2, m3 := MissingError(Roll1, v1), MissingError(Roll2, v2), MissingError(Roll3, v3);
    assert e !in fieldPart;
    assert multiset(fieldPart + (m1 + m2 + m3)) == multiset(fieldPart) + multiset(m1) + multiset(m2) + multiset(m3);
    assert f != Roll1 ==> e !in m1;
    assert f != Roll2 ==> e !in m2;
    assert f != Roll3 ==> e !in m3;
  }

  /** With three rolls in range, each rack error appears exactly when its roll
      exceeds the pins standing before it, and nothing else is reported: at most
      one error in all. */
  lemma RackErrorsExact(r1: int, r2: int, r3: int)
    requires IsRoll(r1) && IsRoll(r2) && IsRoll(r3)
    ensures var errs := Errors(Submission(Number(r1), Number(r2), Number(r3)));
            && (FieldError(Roll2, ExceedsPins(r2, PinsBeforeRoll2(r1))) in errs <==> r2 > PinsBeforeRoll2(r1))
            && (FieldError(Roll3, ExceedsPins(r3, PinsBeforeRoll3(r1, r2))) in errs <==> r3 > PinsBeforeRoll3(r1, r2))
            && (forall e :: e in errs ==> e.problem.ExceedsPins?)
            && (forall e :: e in errs ==>
                  e == FieldError(Roll2, ExceedsPins(r2, PinsBeforeRoll2(r1)))
                  || e == FieldError(Roll3, ExceedsPins(r3, PinsBeforeRoll3(r1, r2))))
            && |errs| <= 1
  {
  }

  /** Worked turns: nothing down, three strikes, an exact clear before roll 3. */
  lemma ExampleAcceptedTurns()
    ensures Validate(Submission(Number(0), Number(0), Number(0))) == Valid(Turn(0, 0, 0), 0)
    ensures Validate(Submission(Number(9), Number(9), Number(9))) == Valid(Turn(9, 9, 9), 27)
    ensures Validate(Submission(Number(3), Number(6), Number(9))) == Valid(Turn(3, 6, 9), 18)
  {
  }

  /** Worked turns without a second reset: roll 3 may take only what is left. */
  lemma ExampleShortRack()
    ensures Validate(Submission(Number(3), Number(4), Number(2))) == Valid(Turn(3, 4, 2), 9)
    ensures Validate(Submission(Number(3), Number(4), Number(3)))
            == Invalid([FieldError(Roll3, ExceedsPins(3, 2))])
  {
  }

  /** Worked turns after a first-roll strike. */
  lemma ExampleAfterStrike()
    ensures Validate(Submission(Number(9), Number(4), Number(5))) == Valid(Turn(9, 4, 5), 18)
    ensures Validate(Submission(Number(9), Number(4), Number(6)))
            == Invalid([FieldError(Roll3, ExceedsPins(6, 5))])
  {
  }

  /** A roll-2 overshoot is reported on roll 2 alone: the form then treats the rack
      as full again for roll 3. */
  lemma ExampleRoll2Overshoot()
    ensures Validate(Submission(Number(5), Number(6), Number(9)))
            == Invalid([FieldError(Roll2, ExceedsPins(6, 4))])
  {
  }
}

=== FILE: turn_order.dfy ===
/** The order in which players take their turns in a round: the two teams'
    players alternate, starting with the team chosen to go first, and once the
    shorter team runs out the rest of the longer team follows. */
module TurnOrder {
  import opened Wrappers

  datatype Team = Own | Opp

  /** The team that opens a round: the choice stored for this round, else the
      game-wide choice, else the own team. */
  function TeamFirst(perRound: Option<Team>, gameWide: Option<Team>): Team
  {
    perRound.GetOr(gameWide.GetOr(Own))
  }

  /** The round is opened by the first player of the team chosen for this round,
      else of the team chosen for the game, else of the own team. */
  lemma OpeningPlayer<T>(own: seq<T>, opp: seq<T>, perRound: Option<Team>, gameWide: Option<Team>)
    requires own != [] && opp != []
    ensures var order := ScoringOrder(own, opp, TeamFirst(perRound, gameWide));
            && (perRound == Some(Opp) || (perRound.None? && gameWide == Some(Opp)) ==> order[0] == opp[0])
            && (perRound == Some(Own) || (perRound.None? && gameWide != Some(Opp)) ==> order[0] == own[0])
  {
  }

  /** Reference definition: alternate `a` and `b`, starting with `a`, then append
      whatever is left of the longer one. */
  function Interleave<T>(a: seq<T>, b: seq<T>): (r: seq<T>)
    ensures |r| == |a| + |b|
    decreases |a| + |b|
  {
    if a == [] then b
    else if b == [] then a
    else [a[0], b[0]] + Interleave(a[1..], b[1..])
  }

  /** Interleaving loses and duplicates nobody: every player of both lists appears
      exactly as often as in the lists themselves. */
  lemma {:induction false} InterleavePermutes<T>(a: seq<T>, b: seq<T>)
    ensures multiset(Interleave(a, b)) == multiset(a) + multiset(b)
    decreases |a| + |b|
  {
    if a != [] && b != [] {
      InterleavePermutes(a[1..], b[1..]);
      assert a == [a[0]] + a[1..] && b == [b[0]] + b[1..];
    }
  }

  /** The scoring order of a round. */
  function ScoringOrder<T>(own: seq<T>, opp: seq<T>, first: Team): (order: seq<T>)
    ensures |order| == |own| + |opp|
    ensures multiset(order) == multiset(own) + multiset(opp)
    ensures first == Own && own != [] ==> order[0] == own[0]
    ensures first == Opp && opp != [] ==> order[0] == opp[0]
  {
    InterleavePermutes(own, opp);
    InterleavePermutes(opp, own);
    if first == Own then Interleave(own, opp) else Interleave(opp, own)
  }

  /** The scoring order built the way the view builds it: walk both lists side by
      side, as far as the longer one reaches, taking the first team's player (if
      any) and then the second team's (if any). */
  method BuildScoringOrder<T>(first: seq<T>, second: seq<T>) returns (order: seq<T>)
    ensures order == Interleave(first, second)
  {
    order := [];
    var longest := if |first| < |second| then |second| else |first|;
    var i := 0;
    while i < longest
      invariant 0 <= i <= longest
      invariant order == Interleave(first[..Min(i, |first|)], second[..Min(i, |second|)])
    {
      Step(first, second, i);
      if i < |first| {
        order := order + [first[i]];
      }
      if i < |second| {
        order := order + [second[i]];
      }
      i := i + 1;
    }
    assert first[..Min(i, |first|)] == first && second[..Min(i, |second|)] == second;
  }

  function Min(x: int, y: int): int
  {
    if x < y then x else y
  }

  /** One step of the side-by-side walk adds the players found at position `i`. */
  lemma Step<T>(first: seq<T>, second: seq<T>, i: nat)
    requires i < |first| || i < |second|
    ensures Interleave(first[..Min(i + 1, |first|)], second[..Min(i + 1, |second|)])
            == Interleave(first[..Min(i, |first|)], second[..Min(i, |second|)])
               + (if i < |first| then [first[i]] else [])
               + (if i < |second| then [second[i]] else [])
  {
    var a, b := first[..Min(i, |first|)], second[..Min(i, |second|)];
    if i < |first| && i < |second| {
      AppendBoth(a, b, first[i], second[i]);
      assert first[..i + 1] == a + [first[i]] && second[..i + 1] == b + [second[i]];
    } else if i < |first| {
      AppendFirst(a, b, first[i]);
      assert first[..i + 1] == a + [first[i]];
      assert second[..Min(i + 1, |second|)] == b;
    } else {
      AppendSecond(a, b, second[i]);
      assert second[..i + 1] == b + [second[i]];
      assert first[..Min(i + 1, |first|)] == a;
    }
  }

  /** Two lists of equal length grow by one player each: the order grows by the pair. */
  lemma {:induction false} AppendBoth<T>(a: seq<T>, b: seq<T>, x: T, y: T)
    requires |a| == |b|
    ensures Interleave(a + [x], b + [y]) == Interleave(a, b) + [x, y]
    decreases |a|
  {
    if a == [] {
      assert a + [x] == [x] && b + [y] == [y];
    } else {
      assert (a + [x])[1..] == a[1..] + [x];
      assert (b + [y])[1..] == b[1..] + [y];
      AppendBoth(a[1..], b[1..], x, y);
    }
  }

  /** Once the second list is exhausted, a further first-team player goes last. */
  lemma {:induction false} AppendFirst<T>(a: seq<T>, b: seq<T>, x: T)
    requires |b| <= |a|
    ensures Interleave(a + [x], b) == Interleave(a, b) + [x]
    decreases |a|
  {
    if b == [] {
    } else {
      assert (a + [x])[1..] == a[1..] + [x];
      AppendFirst(a[1..], b[1..], x);
    }
  }

  /** Once the first list is exhausted, a further second-team player goes last. */
  lemma {:induction false} AppendSecond<T>(a: seq<T>, b: seq<T>, y: T)
    requires |a| <= |b|
    ensures Interleave(a, b + [y]) == Interleave(a, b) + [y]
    decreases |b|
  {
    if a == [] {
    } else {
      assert (b + [y])[1..] == b[1..] + [y];
      AppendSecond(a[1..], b[1..], y);
    }
  }

  /** While both teams still have players, the order alternates: the i-th player of
      the opening team is followed directly by the i-th player of the other. */
  lemma {:induction false} InterleaveAlternates<T>(a: seq<T>, b: seq<T>)
    ensures forall i :: 0 <= i < |a| && i < |b| ==>
              Interleave(a, b)[2 * i] == a[i] && Interleave(a, b)[2 * i + 1] == b[i]
    decreases |a|
  {
    if a != [] && b != [] {
      InterleaveAlternates(a[1..], b[1..]);
      var r := Interleave(a, b);
      var rest := Interleave(a[1..], b[1..]);
      assert r == [a[0], b[0]] + rest;
      forall i | 0 <= i < |a| && i < |b|
        ensures r[2 * i] == a[i] && r[2 * i + 1] == b[i]
      {
        if i > 0 {
          var k := i - 1;
          assert 2 * i == 2 * k + 2;
          assert a[i] == a[1..][k] && b[i] == b[1..][k];
          assert r[2 * k + 2] == rest[2 * k] && r[2 * k + 3] == rest[2 * k + 1];
        }
      }
    }
  }

  /** Once the second team is exhausted, the remaining players of the first team
      follow in their original order. */
  lemma {:induction false} InterleaveTailFirst<T>(a: seq<T>, b: seq<T>)
    requires |b| <= |a|
    ensures forall k :: |b| <= k < |a| ==> Interleave(a, b)[|b| + k] == a[k]
    decreases |b|
  {
    if b != [] {
      InterleaveTailFirst(a[1..], b[1..]);
      var r := Interleave(a, b);
      var rest := Interleave(a[1..], b[1..]);
      assert r == [a[0], b[0]] + rest;
      forall k | |b| <= k < |a|
        ensures r[|b| + k] == a[k]
      {
        assert r[|b| + k] == rest[|b[1..]| + (k - 1)] && a[k] == a[1..][k - 1];
      }
    }
  }

  /** Once the first team is exhausted, the remaining players of the second team
      follow in their original order. */
  lemma {:induction false} InterleaveTailSecond<T>(a: seq<T>, b: seq<T>)
    requires |a| <= |b|
    ensures forall k :: |a| <= k < |b| ==> Interleave(a, b)[|a| + k] == b[k]
    decreases |a|
  {
    if a != [] {
      InterleaveTailSecond(a[1..], b[1..]);
      var r := Interleave(a, b);
      var rest := Interleave(a[1..], b[1..]);
      assert r == [a[0], b[0]] + rest;
      forall k | |a| <= k < |b|
        ensures r[|a| + k] == b[k]
      {
        assert r[|a| + k] == rest[|a[1..]| + (k - 1)] && b[k] == b[1..][k - 1];
      }
    }
  }
}

=== FILE: wrappers.dfy ===
/** The optional value used wherever the application reads a value that may be absent
    (a cleaned form field, a session key, a matched opponent, the current player). */
module Wrappers {

  datatype Option<+T> = None | Some(value: T) {

    /** Returns the value, or `default` when there is none. */
    function GetOr(default: T): T
    {
      match this
      case Some(v) => v
      case None => default
    }
  }
}
